=== FILE: README.md ===
# Sambo club attendance and ledger — a Dafny model

This project models the core of a small sambo club's management system. The
system has four serverless backend handlers and a browser client:

- **attendance** (`backend/attendance/index.py`). A trainer marks a session
  of a group. Every member of the group gets one attendance row, keyed by
  (student, group, date). A member who is present is charged the group's
  per-session cost: the balance goes down and a `charge` transaction is
  written. The handler also lists attendance by student, by group or in
  full.
- **transactions** (`backend/transactions/index.py`). A payment raises a
  student's balance and writes a `payment` transaction. The handler also
  lists the ledger, newest first.
- **students** (`backend/students/index.py`). Enrolling a student creates a
  user account with a generated `sambokid_NNNNN` login and an 8-character
  temporary password, plus a student row with balance 0. The listing gives
  each student their visits, sessions and attendance percentage.
- **groups** (`backend/groups/index.py`). Creating a group defaults its
  per-session cost to 300. The listing shows non-archived groups, newest
  first, with trainer name and student count.
- **the API client** (`src/lib/api.ts`). It builds each request and decides
  what a call returns or throws from a response.
- **the dashboard page** (`src/pages/Index.tsx`). It derives the summary
  figures, debtor list, initials, badges and weekly schedule from its
  built-in student list.

The database is a `Db.Database` object. Its fields are the five tables and
their id counters. Each writing branch of a handler is a method that
`modifies` it, and its contract states the new state as a function of the
old one (`Snapshot() == Effect(old(Snapshot()), ...)`). Two invariants are
kept by every write:

- `Valid`: ids are issued in order, and rows refer to existing students,
  users and groups.
- `LedgerBalanced`: every student's balance equals the sum of that
  student's transactions.

Reading branches and validation are pure functions over the tables. The
modules follow the program's structure:

- `Wrappers`, `Text`, `Decimal`, `Seqs`: Python's `str.strip`, integer
  printing and parsing, sorting.
- `Http`: replies, routing on the HTTP method, and the catch-all 500 reply.
- `Db`: the tables.
- `Attendance`, `Transactions`, `Students`, `Groups`: one module per
  handler.
- `Api`: the client.
- `Dashboard`: the page.

The average attendance of an empty student list is `NaN` in
`src/pages/Index.tsx:46` (a division by zero before `Math.round`), where 0
would be the meaningful figure. The model follows the code:
`Dashboard.AvgAttendance` returns `NotANumber` for it.

## Model

| member | source | states |
|---|---|---|
| Text.Strip | backend/students/index.py:74 | `str.strip()`: the result is the input with its leading and trailing whitespace removed, and it neither starts nor ends with whitespace |
| Text.StripEmptyIffAllSpace | backend/groups/index.py:56-61 | a stripped field is empty exactly when the raw field is all whitespace, which is when the `not name` check fires |
| Text.StripIdempotent | backend/transactions/index.py:35 | stripping twice is stripping once |
| Text.StripUntrimmed | backend/transactions/index.py:35 | a text that has no whitespace at either end is left as it is |
| Text.StrLeTotal | backend/students/index.py:47 | the code-point order used for `ORDER BY u.full_name` compares any two names |
| Text.StrLeTransitive | backend/students/index.py:47 | that order is transitive |
| Text.StrLeAntisymmetric | backend/students/index.py:47 | that order is antisymmetric |
| Decimal.NatToDecimalRoundTrip | src/lib/api.ts:114 | the digits printed for a number read back as that number |
| Decimal.ParseIntegerRoundTrip | src/lib/api.ts:114 | an id printed into a query string parses back as the same integer |
| Decimal.DecimalUntrimmed | src/lib/api.ts:114 | a printed id has no surrounding whitespace |
| Seqs.SortBy | backend/students/index.py:47 | the listing sort returns a permutation of its input |
| Seqs.SortBySorted | backend/students/index.py:47 | under a total order, the sorted listing is ordered and keeps its length |
| Seqs.InsertSorted | backend/attendance/index.py:107 | inserting into a sorted list keeps it sorted |
| Seqs.Take | backend/attendance/index.py:108 | `LIMIT n` keeps the first n rows, or all of them when there are fewer |
| Seqs.SortedChain | backend/attendance/index.py:107 | under a transitive order, a list sorted pair by pair is ordered between any two positions |
| Seqs.TakeKeepsFirst | backend/attendance/index.py:107-108 | `ORDER BY … LIMIT n` keeps rows that each come before every row it drops |
| Seqs.Reverse | backend/transactions/index.py:98 | descending order over rows held in ascending order: the i-th from the front is the i-th from the back |
| Seqs.ReverseSameElements | backend/groups/index.py:40 | `ORDER BY … DESC` over rows held in ascending order lists the same rows |
| Http.ServerError | backend/attendance/index.py:152-158 | any exception gives status 500 and an error text that starts with "Ошибка сервера: " |
| Http.RouteOf | backend/attendance/index.py:11-32 | OPTIONS is the preflight, POST submits, GET or a missing method queries, and any other method is not allowed (405) |
| Http.StripField | backend/groups/index.py:56-58 | a definition, used as the reference by `Students.AdmitStudent` and `Groups.AdmitGroup`: `body.get(key, '').strip()` reads an absent field as the empty text, strips a present one, and gives no text for `null` (the `.strip()` call fails) |
| Db.LedgerSumAppend | backend/transactions/index.py:50-58 | appending a transaction raises the sum of its own student's ledger by its amount and leaves the others' sums alone |
| Db.LedgerSumOfStranger | backend/students/index.py:100-105 | a student with no transactions has a ledger sum of 0 |
| Db.AdjustBalance | backend/transactions/index.py:58 | `UPDATE students SET balance = balance + x WHERE id = s` changes only the balance of student s, by x |
| Db.PostingKeepsBalanced | backend/transactions/index.py:50-58 | posting a transaction and adjusting the balance by its amount keeps every balance equal to its ledger sum |
| Db.ReadId | backend/attendance/index.py:106 | an id parameter is accepted exactly when it is a decimal integer in PostgreSQL's `integer` range |
| Db.FindGroup | backend/attendance/index.py:50-52 | the lookup finds a group with that id, or reports that none exists |
| Db.FindUser | backend/groups/index.py:36 | the lookup finds a user with that id, or reports that none exists |
| Db.FindStudent | backend/transactions/index.py:60-61 | the lookup finds the position of the student with that id, or reports that none exists |
| Db.Members | backend/attendance/index.py:64-65 | the ids selected are exactly the ids of students whose group is the marked group |
| Db.MembersNoDuplicates | backend/attendance/index.py:64-65 | with unique student ids, the member list holds no id twice |
| Db.MemberIffInGroup | backend/attendance/index.py:64 | a student is in the member list exactly when its `group_id` is the group |
| Db.PostKeepsReferences | backend/transactions/index.py:50-54 | a new transaction with the next id for an existing student keeps ids issued in order and references valid |
| Db.SameStudentsKeepReferences | backend/transactions/index.py:58 | changing only balances keeps every reference to students valid |
| Db.SameStudentsFind | backend/transactions/index.py:60 | changing only balances does not move any student |
| Db.Posted | backend/transactions/index.py:50-58 | posting appends the transaction, raises its student's balance by the amount, and changes nothing else |
| Db.PostedBalance | backend/transactions/index.py:58-61 | after posting, the balance read back is the old balance plus the amount |
| Db.PostingKeepsInvariants | backend/transactions/index.py:50-63 | posting keeps the tables valid and the balances equal to the ledger |
| Db.Database.Post | backend/transactions/index.py:50-58 | the database's new state is the posted state |
| Db.IdDrawKeepsInvariants | backend/transactions/index.py:50-54 | using up an id from a sequence without inserting a row keeps the tables valid and the ledger balanced |
| Db.Database.DrawTransactionId | backend/transactions/index.py:50-54 | a failed transaction insert changes nothing but the transaction id sequence, which is not rolled back |
| Db.Database.DrawGroupId | backend/groups/index.py:71-75 | a failed group insert changes nothing but the group id sequence, which is not rolled back |
| Db.Database.constructor | backend/transactions/index.py:27-29 | an empty database is valid and balanced |
| Attendance.Admit | backend/attendance/index.py:32-62 | an undecodable body gives 500; a missing group or date gives 400; an unknown group gives 404; otherwise the session carries the request's fields (a `null` comment as `NULL`) and the group's cost |
| Attendance.FindSession | backend/attendance/index.py:73 | finds the first row with the conflict key (student, group, date), or reports that none exists |
| Attendance.UpsertEffect | backend/attendance/index.py:70-75 | `ON CONFLICT DO UPDATE`: the keyed row gets the new presence and comment and keeps its old `cost_charged`; a new row is charged the cost only if present; other keys are unchanged |
| Attendance.MarkedRows | backend/attendance/index.py:67-75 | after marking, each member's row for the session is the marked row, and every other key is unchanged |
| Attendance.UpsertKeepsUnique | backend/attendance/index.py:73 | an upsert keeps the (student, group, date) keys unique |
| Attendance.ChargedBalances | backend/attendance/index.py:77-78 | marking lowers a student's balance by the cost exactly when it is a member and present, and leaves everything else of the row alone |
| Attendance.ChargesShape | backend/attendance/index.py:80-83 | each charge transaction is a `charge` for a present member, with the next id |
| Attendance.ChargesLedger | backend/attendance/index.py:80-83 | the charges add -cost to a present member's ledger and nothing to anyone else's |
| Attendance.MarkingKeepsBalanced | backend/attendance/index.py:67-83 | marking keeps every balance equal to its ledger sum |
| Attendance.UpsertUnchanged | backend/attendance/index.py:73-74 | re-marking a row with the same presence and comment leaves it as it was |
| Attendance.UpsertAllUnchanged | backend/attendance/index.py:67-75 | re-marking a whole session the same way leaves the attendance table as it was |
| Attendance.RemarkChargesAgain | backend/attendance/index.py:67-83 | marking the same session twice leaves the rows as after the first time, but charges each present member twice |
| Attendance.UnmarkRefundsNothing | backend/attendance/index.py:74-78 | re-marking a member absent sets the row to absent, keeps its `cost_charged` and refunds nothing |
| Attendance.UpsertKeepsReferences | backend/attendance/index.py:70-75 | an upsert for an existing student and group keeps keys unique and references valid |
| Attendance.UpsertAllKeepsReferences | backend/attendance/index.py:67-75 | marking members of an existing group keeps keys unique and references valid |
| Attendance.ChargesKeepReferences | backend/attendance/index.py:80-83 | charges for existing members keep transaction ids in order and references valid |
| Attendance.ChargeAllSameStudents | backend/attendance/index.py:78 | charging changes only balances |
| Attendance.MarkedByTables | backend/attendance/index.py:67-83 | the member-by-member loop equals upserting all rows, charging all balances and appending all charges |
| Attendance.MarkingKeepsInvariants | backend/attendance/index.py:64-85 | a committed marking keeps the tables valid and the ledger balanced |
| Attendance.MarkMember | backend/attendance/index.py:68-83 | one loop iteration: the new state is the old state with that member marked |
| Attendance.MarkMembers | backend/attendance/index.py:67-83 | the loop: the new state is the old state with every member marked in order |
| Attendance.Mark | backend/attendance/index.py:32-94 | a refused marking changes nothing and returns its error; an accepted one commits the marked state and returns 200; validity and balance are kept |
| Attendance.Select | backend/attendance/index.py:97-129 | a non-empty `student_id` selects by student and takes precedence, then `group_id`; an unreadable id is an error; otherwise everything |
| Attendance.StudentParamTakesPrecedence | backend/attendance/index.py:101-110 | with `student_id` given, `group_id` does not matter |
| Attendance.PrintedIdSelects | backend/attendance/index.py:101-109 | a printed in-range id selects that student |
| Attendance.JoinRow | backend/attendance/index.py:102-129 | a row appears with the student name unless listed by student and the group name unless listed by group, and it appears whenever its joins succeed |
| Attendance.Joined | backend/attendance/index.py:102-129 | the joined listing holds only rows that match the query |
| Attendance.MatchingRows | backend/attendance/index.py:106-116 | the rows matching the `WHERE` clause, in table order |
| Attendance.RowsOf | backend/attendance/index.py:138 | the attendance rows of a listing, one per entry |
| Attendance.JoinsDropNothing | backend/attendance/index.py:102-129 | with valid references, the inner joins drop no matching row |
| Attendance.JoinRowFound | backend/attendance/index.py:105-126 | a row of an existing student and group is listed exactly when it matches |
| Attendance.OrderTotal | backend/attendance/index.py:107-127 | date descending, then name, is a total order |
| Attendance.OrderTransitive | backend/attendance/index.py:107-127 | date descending, then name, is a transitive order |
| Attendance.Listing | backend/attendance/index.py:102-131 | the listing is sorted, holds at most the limit (500 for a group listing, 100 otherwise), is drawn from the joined matching rows, and every row it keeps comes before, in the listing order, every joined row it drops |
| Attendance.ListReply | backend/attendance/index.py:96-140 | a readable query gives 200 with its listing; an unreadable id gives 500 |
| Attendance.Handle | backend/attendance/index.py:18-158 | routing: preflight, 405, the listing, or the marking; only POST changes the database: a refused marking leaves it as it was and replies with its error, an accepted one replies 200 and leaves it with the session marked |
| Transactions.TruncateReal | backend/transactions/index.py:48 | `int()` of a float truncates toward zero |
| Transactions.Coerce | backend/transactions/index.py:48 | `int(amount)` for integers, booleans, floats and numeric strings; a TypeError for other kinds |
| Transactions.AdmitPayment | backend/transactions/index.py:32-54 | an accepted payment names an existing student |
| Transactions.PaymentRefusals | backend/transactions/index.py:32-61 | an undecodable body and a null description give 500; a missing or zero student id or a missing amount gives 400; a payment for a student that does not exist is aborted with 500 after its insert; every refusal or abort is an error reply |
| Transactions.PaymentAcceptance | backend/transactions/index.py:32-54 | a payment is accepted exactly when every check passes; it then carries the converted amount and the stripped description, or "Пополнение баланса" when that is empty |
| Transactions.Pay | backend/transactions/index.py:31-76 | a refused payment changes nothing; one for a missing student replies 500 and uses up a transaction id and nothing else; an accepted one posts the transaction and replies with its id and the balance after it; validity and balance are kept |
| Transactions.SelectTx | backend/transactions/index.py:79-91 | a non-empty `student_id` selects that student if readable and is an error otherwise; without it everything is listed |
| Transactions.CreatorName | backend/transactions/index.py:86 | the `LEFT JOIN` gives a creator name exactly when `created_by` names an existing user |
| Transactions.AccountName | backend/transactions/index.py:95-96 | a student name exists only for an existing student |
| Transactions.JoinTx | backend/transactions/index.py:83-100 | a transaction is listed with its creator name and, in the full listing, its student name; it is dropped only when it does not match or its student's joins fail |
| Transactions.TxJoined | backend/transactions/index.py:83-100 | the joined listing holds only matching transactions |
| Transactions.TxsOf | backend/transactions/index.py:109 | the transactions of a listing, one per entry |
| Transactions.MatchingTxs | backend/transactions/index.py:87 | the transactions matching the `WHERE` clause, in table order |
| Transactions.TxJoinsDropNothing | backend/transactions/index.py:83-100 | with valid references, the joins drop no matching transaction |
| Transactions.TxJoinedIncreasing | backend/transactions/index.py:88-98 | the joined listing keeps the table's increasing id order |
| Transactions.TxListing | backend/transactions/index.py:88-99 | the listing is the last 100 joined transactions, newest first |
| Transactions.NewestFirst | backend/transactions/index.py:88-98 | the listing's ids strictly decrease |
| Transactions.TxListReply | backend/transactions/index.py:78-111 | a readable query gives 200 with its listing; an unreadable id gives 500 |
| Transactions.Handle | backend/transactions/index.py:18-129 | routing: preflight, 405, the listing, or the payment; only POST changes the database, with the same three outcomes (unchanged, one id used up, posted with 200 and the new balance) as `Pay` |
| Students.CharRange | backend/students/index.py:15 | a run of n consecutive characters, such as `string.digits` |
| Students.Pick | backend/students/index.py:15 | `random.choices` with the choices given: the i-th character is the alphabet's picked one |
| Students.GenerateLogin | backend/students/index.py:13-16 | a login is "sambokid_" followed by five ASCII digits |
| Students.TempPassword | backend/students/index.py:90 | a temporary password has 8 ASCII letters or digits |
| Students.PickInjective | backend/students/index.py:15 | different choices over a repetition-free alphabet give different strings |
| Students.LoginInjective | backend/students/index.py:13-16 | different digit choices give different logins |
| Students.VisitsAtMostSessions | backend/students/index.py:42-43 | a student's visits never exceed their sessions |
| Students.RoundHalfEven | backend/students/index.py:55-57 | Python's `round`: the nearest integer, with ties going to the even one |
| Students.AttendancePercentage | backend/students/index.py:54-59 | 0 without sessions; otherwise the rounded percentage, within half a point of the exact one: 0 with no visits, 100 when every session was visited, never above 100 |
| Students.RoundedShare | backend/students/index.py:55-57 | the rounded share is at most 100, is 0 for no visits and is 100 for all visits |
| Students.ViewOf | backend/students/index.py:41-46 | a student is listed exactly when its user exists; the view has the user's name, the visit and session counts and their percentage, and a group name exactly when its group exists |
| Students.Views | backend/students/index.py:41-60 | every view is the view of a listed student |
| Students.ViewsKeepEveryone | backend/students/index.py:40-46 | when every student has a user, the join drops no student: the i-th view is the i-th student's, with its user, group name and visit counts |
| Students.ByNameTotal | backend/students/index.py:47 | ordering by full name is a total order |
| Students.Roster | backend/students/index.py:40-60 | the listing is a permutation of the views, sorted by name, with every percentage at most 100 |
| Students.AdmitStudent | backend/students/index.py:73-87 | an undecodable body gives 500, a null name or contact gives 500, and an empty stripped name gives 400; an accepted applicant carries the stripped name and contact |
| Students.Enrolled | backend/students/index.py:93-105 | enrolment appends a `student` user with the contact as phone, and a student row with balance 0 that points at it; nothing else changes |
| Students.FindUserAppend | backend/students/index.py:93-98 | appending a user with a fresh id keeps every lookup and finds the new one |
| Students.AppendedStudentKeepsReferences | backend/students/index.py:100-105 | appending a student keeps every attendance row and transaction reference valid |
| Students.EnrolmentKeepsAccounts | backend/students/index.py:93-105 | after enrolment every student still has a user |
| Students.EnrolmentKeepsLedger | backend/students/index.py:100-105 | a new student with balance 0 and no transactions keeps the ledger balanced |
| Students.EnrolmentKeepsInvariants | backend/students/index.py:93-107 | enrolment keeps the tables valid and the ledger balanced |
| Students.Insert | backend/students/index.py:93-105 | the new state is the enrolled state, and the new student's id is returned |
| Students.Enrol | backend/students/index.py:72-122 | a refused request changes nothing; an accepted one enrols the student and replies 201 with the id, login, password and message; validity and balance are kept |
| Students.Handle | backend/students/index.py:18-140 | routing: preflight, 405, the roster, or the enrolment; only POST changes the database: a refused request leaves it as it was, an accepted one enrols the student and replies 201 with id, login, password and message |
| Groups.AdmitGroup | backend/groups/index.py:55-75 | an undecodable body, a null name and a null schedule give 500; an empty stripped name gives 400; otherwise a `null` cost makes the insert fail with 500, and an accepted group carries the stripped name and schedule, and the given cost or 300 when the key is absent |
| Groups.FoundingDefaults | backend/groups/index.py:56-59 | a request with a non-blank name is accepted unless its cost is `null`, which fails the insert; a missing cost becomes 300 and a present one is kept |
| Groups.Founded | backend/groups/index.py:71-75 | creation appends a non-archived group with the next id and changes nothing else |
| Groups.FindGroupAppend | backend/groups/index.py:71-75 | appending a group with a fresh id keeps every lookup and finds the new one |
| Groups.FoundingKeepsInvariants | backend/groups/index.py:71-78 | creation keeps the tables valid and the ledger balanced |
| Groups.Insert | backend/groups/index.py:71-77 | the new state is the founded state, and the returned record is the new row |
| Groups.Create | backend/groups/index.py:54-87 | a refused request changes nothing; a failed insert replies 500 and uses up a group id and nothing else; an accepted one creates the group and replies 201 with its record; validity and balance are kept |
| Groups.GroupColumn | backend/groups/index.py:37 | the `group_id` column, one entry per student |
| Groups.MembersCount | backend/groups/index.py:34-37 | a group's member list has exactly as many entries as there are students whose `group_id` is the group |
| Groups.StudentCount | backend/groups/index.py:34-39 | `COUNT(s.id)` is the number of students whose `group_id` is the group; so it is at most the number of students, and 0 exactly when no student is in the group |
| Groups.ViewOf | backend/groups/index.py:33-39 | a group's view has its student count, and a trainer name exactly when its trainer exists |
| Groups.ActiveViews | backend/groups/index.py:32-39 | the views are exactly those of the non-archived groups |
| Groups.GroupListing | backend/groups/index.py:32-42 | the listing shows every non-archived group and nothing else |
| Groups.ActiveViewsIncreasing | backend/groups/index.py:38 | filtering keeps the table's increasing id order |
| Groups.GroupsNewestFirst | backend/groups/index.py:40 | the listing's ids strictly decrease, newest first |
| Groups.ArchivedHidden | backend/groups/index.py:38 | an archived group is never listed |
| Groups.MembersAppend | backend/groups/index.py:37 | a new student adds its id to its own group's members only |
| Groups.EnrolmentCounts | backend/groups/index.py:34-37 | enrolling a student in a group raises that group's count by one and leaves the other counts alone |
| Groups.Handle | backend/groups/index.py:10-105 | routing: preflight, 405, the listing, or the creation; only POST changes the database, with the same three outcomes as `Create` (unchanged, one id used up, created with 201 and the record) |
| Api.Get | src/lib/api.ts:73 | a property read throws a `TypeError` exactly on `null` and `undefined`, gives the field when present, and gives `undefined` otherwise |
| Api.StudentQuery | src/lib/api.ts:114 | the URL is the base, then "?student_id=", then the printed id |
| Api.GroupQuery | src/lib/api.ts:120 | the URL is the base, then "?group_id=", then the printed id |
| Api.QueryInjective | src/lib/api.ts:114-120 | different ids give different URLs |
| Api.QueriesSelectWhatTheyName | src/lib/api.ts:113-154 | the handlers read the id that the client prints as the same student or group |
| Api.LoginRequest | src/lib/api.ts:57-62 | login posts to the auth endpoint a body with exactly the login and the password |
| Api.ListRequest | src/lib/api.ts:70-154 | each listing call fetches its endpoint, with the id in the query for per-student and per-group calls |
| Api.Listed | src/lib/api.ts:72-153 | `data.key \|\| []`: throws on a `null` or `undefined` body, returns the field when truthy, and returns `[]` otherwise |
| Api.Settled | src/lib/api.ts:63-169 | a non-ok response throws `data.error` or the call's fallback message, or a `TypeError` on a `null` or `undefined` body; an ok response returns the body, and `groups.create` returns `data.group` (`undefined` for a non-object body) |
| Api.ErrorBody | backend/groups/index.py:67 | an error reply's body holds exactly the `error` field |
| Api.ErrorListsAsEmpty | src/lib/api.ts:72-73 | a listing call turns a handler's error reply into an empty list, the same as an empty result |
| Api.HandlerErrorsSurface | src/lib/api.ts:82-83 | a mutating call that gets a handler's error throws the handler's message, or the fallback when the message is empty |
| Api.MarkRefusalSurfaces | src/lib/api.ts:138 | every refusal of a marking by the attendance handler is an error reply, and `api.attendance.mark` throws its message, or the fallback when it is empty |
| Api.PaymentRefusalSurfaces | src/lib/api.ts:168 | every refused or aborted payment is an error reply, and `api.transactions.addPayment` throws its message, or the fallback when it is empty |
| Api.EnrolRefusalSurfaces | src/lib/api.ts:107 | every refused enrolment is an error reply, and `api.students.create` throws its message, or the fallback when it is empty |
| Api.GroupRefusalSurfaces | src/lib/api.ts:83 | every refused or aborted group creation is an error reply, and `api.groups.create` throws its message, or the fallback when it is empty |
| Dashboard.Debtors | src/pages/Index.tsx:196 | the debtor list holds exactly the students with a negative balance |
| Dashboard.DebtorsAppend | src/pages/Index.tsx:196 | filtering distributes over concatenation |
| Dashboard.DebtorsSingle | src/pages/Index.tsx:196 | one student is a debtor exactly when its balance is negative |
| Dashboard.DebtorsIdempotent | src/pages/Index.tsx:150-196 | filtering the debtors again changes nothing |
| Dashboard.TotalDebtIsOwed | src/pages/Index.tsx:44 | the total debt equals the sum of each student's negative part |
| Dashboard.OwedSign | src/pages/Index.tsx:44 | that sum is never negative, and it is 0 exactly when no balance is negative |
| Dashboard.DebtSign | src/pages/Index.tsx:44-150 | the total debt is never negative, and it is 0 exactly when the debtor list is empty |
| Dashboard.BalanceIsCreditLessDebt | src/pages/Index.tsx:44-45 | total balance plus total debt equals the sum of the positive balances |
| Dashboard.BalanceOwedCredit | src/pages/Index.tsx:45 | total balance plus the negative parts equals the positive parts |
| Dashboard.AvgAttendance | src/pages/Index.tsx:46 | `Math.round(sum / n)`: NaN exactly for an empty list; otherwise the nearest integer, with halves rounded up |
| Dashboard.AttendanceBounds | src/pages/Index.tsx:46 | bounds on every attendance bound the sum |
| Dashboard.AverageInRange | src/pages/Index.tsx:46 | with every attendance in 0..100, the average is in 0..100 |
| Dashboard.SignPrefix | src/pages/Index.tsx:135 | "+" exactly for non-negative amounts, nothing for negative ones |
| Dashboard.ShownAmountSigned | src/pages/Index.tsx:299-300 | a shown amount starts with "+" exactly when non-negative and with "-" exactly when negative, followed by digits |
| Dashboard.Badge | src/pages/Index.tsx:178 | the badge is `default` exactly at 90% attendance or above |
| Dashboard.Split | src/pages/Index.tsx:169 | `split(' ')` gives at least one piece, and no piece holds a space |
| Dashboard.JoinSplit | src/pages/Index.tsx:169 | joining the pieces with spaces gives back the name |
| Dashboard.SplitWordPrefix | src/pages/Index.tsx:169 | a word with no space stays at the head of the first piece |
| Dashboard.SplitJoin | src/pages/Index.tsx:169 | splitting words joined by spaces gives back the words |
| Dashboard.FirstChars | src/pages/Index.tsx:169 | `map(n => n[0]).join('')`: at most one character per piece, and no space when the pieces have none |
| Dashboard.Initials | src/pages/Index.tsx:169 | the initials hold no space and are at most one per piece |
| Dashboard.InitialsOfWords | src/pages/Index.tsx:169-286 | the initials of non-empty words joined by single spaces are their first letters, in order |
| Dashboard.FirstCharsOfWords | src/pages/Index.tsx:169 | for non-empty pieces, the i-th initial is the first character of the i-th piece |
| Dashboard.Slots | src/pages/Index.tsx:370-387 | even weekdays show 16:00 and 17:00, odd weekdays show 18:00, and Sunday shows nothing |
| Dashboard.WeekLayout | src/pages/Index.tsx:364-387 | Monday, Wednesday and Friday show the two afternoon slots; Tuesday, Thursday and Saturday show the juniors; Sunday is empty; Saturday and Sunday are muted |
| Dashboard.MockDebtors | src/pages/Index.tsx:30-35 | the built-in debtors are Петрова Мария and Кузнецова Анна |
| Dashboard.MockFigures | src/pages/Index.tsx:43-46 | the built-in figures are a debt of 900, a balance of +900 and an average attendance of 88 |

## Left out

- CORS: the preflight reply's headers and every reply's headers are not modelled. The preflight is the `Preflighted` payload.
- The database connection, cursor and close calls are not modelled. A handler commits all of its writes at once or none: an exception before `commit` leaves the tables unchanged.
- Password hashing (`bcrypt`) and the random choices of login digits and password characters are parameters of `Students.Enrol`. The model does not check that the hash matches the password.
- Login uniqueness: nothing in the handler avoids a clash with an existing login. The model does not enforce a unique constraint, whose failure would be a 500.
- The database schema is not part of this model. Foreign keys on `group_id`, `trainer_id` and `created_by` are not checked on insert. Only the student of a payment is checked, because the following `SELECT balance` depends on it. `NOT NULL` constraints and the `birth_date` format are not checked either.
- The `email` column of the students listing is left out, because the user records modelled here have no email.
- `created_at` is taken to follow id order. Ordering by it is modelled as ordering by id, and ties in `ORDER BY session_date` or `full_name` keep table order.
- Text ordering is by Unicode code point, not by the database collation.
- JSON request fields of unexpected types are left out: a number where a name is expected, or a non-list `present_students`. The exceptions are the payment `amount`, where Python's `int()` is modelled, `null` for a text field that is stripped (a 500), a `null` `trainer_comment` (stored as `NULL`) and a `null` `cost_per_session`. A `null` `present_students` is also left out.
- Attendance.Admit: takes `session_date` to be a valid date written as canonical `YYYY-MM-DD` text, and does not check it. The `session_date` column is a `DATE`, so the source differs in three ways. An invalid date fails the attendance insert, which gives a 500 with nothing committed; the model marks and charges. Two spellings of one date (`2026-1-5` and `2026-01-05`) are one conflict key in the database but two keys here. `ORDER BY a.session_date` orders by date value, and the model's code-point order agrees with it only on canonical text.
- Transactions.Pay: amounts, costs and balances are unbounded integers. The ranges of the `amount`, `balance` and `cost_per_session` columns are not modelled. An amount outside the column's range (Python's `int()` is itself unbounded) would fail the insert or the balance update with a 500 and a rollback; the model posts it. The same holds for the charges of `Attendance.Mark` and the costs of `Groups.Create`.
- Groups.AdmitGroup: takes `cost_per_session` to be a `NOT NULL` column, so a `null` cost fails the insert. The schema is not part of this model; were the column nullable, the group would be created with no cost and a later marking of a present member would fail instead.
- Transactions.Coerce: reads strings through `Decimal.ParseInteger`, which does not accept what Python's `int()` also accepts: underscores between digits and non-ASCII decimal digits. A JSON number with a fraction or an exponent is taken as its exact decimal value (`Fractional`), not as the binary64 float that `json.loads` decodes. So three effects are not captured. An over-precise literal such as `2.99999999999999999` decodes to 3.0 and posts 3, where the model posts 2. An overflowing literal such as `1e400` decodes to infinity, and `int()` then raises `OverflowError`: a 500 before the insert, so no id is drawn, where the model posts it. The non-standard `NaN` and `Infinity` tokens, which `json.loads` accepts and `int()` rejects with a 500, cannot be written in the model.
- Db.ReadId: reads through `Decimal.ParseInteger`, which trims the whitespace Python's `str.strip()` trims; PostgreSQL's integer input trims only ASCII whitespace, and newer PostgreSQL versions also accept underscores between digits and `0x`, `0o` and `0b` prefixes.
- The wording of driver and Python error texts in 500 replies is approximated. Only their "Ошибка сервера: " prefix is promised.
- Students.AttendancePercentage: rounds the exact ratio half-to-even. Python computes the ratio in floating point first, so at an exact tie such as 23 visits of 40 sessions the float product may round differently (57 instead of 58).
- Dashboard.AvgAttendance: rounds the exact mean half up. Floating-point effects of JavaScript's division before `Math.round` are not modelled.
- The JavaScript `Number` printing of non-integer ids in query strings is not modelled. Ids are integers.
- Dashboard.Initials: works on whole characters. JavaScript's `n[0]` takes a UTF-16 code unit, which differs for characters outside the basic plane.
- The `fetch` round trip is not modelled, and neither is a body that `response.json()` cannot decode. `Api.Settled` and `Api.Listed` take the response's `ok` flag and decoded body. The text of the thrown `Error` (its string conversion of non-string values) and of the `TypeError` is not modelled.
- `Dashboard`: the `totalStudents` card is the length of the list and has no member of its own. The page's mock groups and all JSX markup, tabs and React state are not modelled.
- The `auth` endpoint's handler is not part of this model. Only the client's request and the handling of its response are.

=== FILE: api.dfy ===
/**
 * The browser's API client (`api.*`): for each call, the request it sends and
 * what it makes of the decoded response. The network round trip itself is
 * not modelled; a call's result is a function of the response's `ok` flag
 * and its decoded JSON body.
 */
module Api {
  import opened Wrappers
  import opened Decimal
  import opened Http
  import opened Db
  import Attendance
  import Transactions
  import Students
  import Groups

  /** A decoded JSON value as JavaScript sees it (plus `undefined`, which property access can yield). */
  datatype Js =
    | Undefined
    | Null
    | Bool(b: bool)
    | Num(n: real)
    | NaN
    | Str(s: string)
    | Arr(items: seq<Js>)
    | Obj(fields: map<string, Js>)

  /** JavaScript truthiness: everything but `undefined`, `null`, `false`, `0`, `NaN` and `""`. */
  predicate Truthy(v: Js) {
    match v
    case Undefined => false
    case Null => false
    case Bool(b) => b
    case Num(n) => n != 0.0
    case NaN => false
    case Str(s) => s != ""
    case _ => true
  }

  /** `a || b`. */
  function Or(a: Js, b: Js): Js {
    if Truthy(a) then a else b
  }

  /** How an `async` call settles: with a value, or by throwing. */
  datatype Outcome = Returned(value: Js) | Thrown(error: Error)

  /**
   * What is thrown: an `Error` built from a value, or the `TypeError` of
   * reading a property of `null` or `undefined`.
   */
  datatype Error = Raised(message: Js) | ReadOfNothing(key: string)

  /**
   * `data.key`: the field of an object, `undefined` for a missing field or
   * another non-object, a `TypeError` on `null` and on `undefined`.
   */
  function Get(data: Js, key: string): (r: Outcome)
    ensures r.Thrown? <==> data.Null? || data.Undefined?
    ensures r.Thrown? ==> r.error == ReadOfNothing(key)
    ensures data.Obj? && key in data.fields ==> r == Returned(data.fields[key])
    ensures r.Returned? && !(data.Obj? && key in data.fields) ==> r.value == Undefined
  {
    match data
    case Null => Thrown(ReadOfNothing(key))
    case Undefined => Thrown(ReadOfNothing(key))
    case Obj(fields) => Returned(if key in fields then fields[key] else Undefined)
    case _ => Returned(Undefined)
  }

  // ------------------------------------------------ endpoints and requests

  const AuthBase := "https://functions.poehali.dev/0cd64a83-9e83-46f9-af74-51188cdb58ae"
  const GroupsBase := "https://functions.poehali.dev/c773dc60-74a2-4b60-99cf-9c08d77f6e23"
  const StudentsBase := "https://functions.poehali.dev/70baa7bf-5aa8-4fa2-92d9-950ca31579de"
  const AttendanceBase := "https://functions.poehali.dev/5a193d5d-2c57-4a45-bb02-73dbbb01b20d"
  const TransactionsBase := "https://functions.poehali.dev/1ebcd5ce-86f7-4573-ac0c-91a97656f57c"

  /** A `fetch`: a GET of a URL, or a POST of a JSON body. */
  datatype Request = Fetch(url: string) | Send(url: string, body: Js)

  /** `${base}?student_id=${id}`. */
  function StudentQuery(base: string, id: int): (url: string)
    ensures |url| > |base| + 12
    ensures url[..|base|] == base && url[|base|..|base| + 12] == "?student_id="
    ensures url[|base| + 12..] == IntToDecimal(id)
  {
    base + "?student_id=" + IntToDecimal(id)
  }

  /** `${base}?group_id=${id}`. */
  function GroupQuery(base: string, id: int): (url: string)
    ensures |url| > |base| + 10
    ensures url[..|base|] == base && url[|base|..|base| + 10] == "?group_id="
    ensures url[|base| + 10..] == IntToDecimal(id)
  {
    base + "?group_id=" + IntToDecimal(id)
  }

  /** Different ids give different URLs: the printed id is read back as the same id. */
  lemma QueryInjective(base: string, a: int, b: int)
    requires StudentQuery(base, a) == StudentQuery(base, b) || GroupQuery(base, a) == GroupQuery(base, b)
    ensures a == b
  {
    ParseIntegerRoundTrip(a);
    ParseIntegerRoundTrip(b);
    if GroupQuery(base, a) == GroupQuery(base, b) {
      assert IntToDecimal(a) == GroupQuery(base, a)[|base| + 10..];
      assert IntToDecimal(b) == GroupQuery(base, b)[|base| + 10..];
    }
  }

  /**
   * The attendance handler reads the `student_id` the client prints as the
   * same student, and likewise `group_id`; the transactions handler reads its
   * `student_id` the same way. Ids stay within the database's integer range.
   */
  lemma QueriesSelectWhatTheyName(id: int)
    requires InInt4(id)
    ensures var t := StudentQuery(AttendanceBase, id)[|AttendanceBase| + 12..];
      Attendance.Select(Some(t), None) == Parsed(Attendance.ByStudent(id))
    ensures var t := GroupQuery(AttendanceBase, id)[|AttendanceBase| + 10..];
      Attendance.Select(None, Some(t)) == Parsed(Attendance.ByGroup(id))
    ensures var t := StudentQuery(TransactionsBase, id)[|TransactionsBase| + 12..];
      Transactions.SelectTx(Some(t)) == Parsed(Transactions.OfStudent(id))
  {
    ParseIntegerRoundTrip(id);
  }

  /** `auth.login` posts exactly the login and the password. */
  function LoginRequest(login: string, password: string): (r: Request)
    ensures r.Send? && r.url == AuthBase
    ensures r.body.Obj? && r.body.fields.Keys == {"login", "password"}
    ensures r.body.fields["login"] == Str(login) && r.body.fields["password"] == Str(password)
  {
    Send(AuthBase, Obj(map["login" := Str(login), "password" := Str(password)]))
  }

  /** The six listing calls. */
  datatype Listing =
    | AllGroups
    | AllStudents
    | StudentAttendance(studentId: int)
    | GroupAttendance(groupId: int)
    | AllTransactions
    | StudentTransactions(studentId: int)

  /** The field of the response body a listing call reads. */
  function ListKey(l: Listing): string {
    match l
    case AllGroups => "groups"
    case AllStudents => "students"
    case StudentAttendance(_) => "attendance"
    case GroupAttendance(_) => "attendance"
    case AllTransactions => "transactions"
    case StudentTransactions(_) => "transactions"
  }

  /** The GET a listing call sends: the endpoint, with the id in the query for per-entity calls. */
  function ListRequest(l: Listing): (r: Request)
    ensures r.Fetch?
    ensures l.StudentAttendance? ==> r.url == StudentQuery(AttendanceBase, l.studentId)
    ensures l.GroupAttendance? ==> r.url == GroupQuery(AttendanceBase, l.groupId)
    ensures l.StudentTransactions? ==> r.url == StudentQuery(TransactionsBase, l.studentId)
    ensures l.AllGroups? ==> r.url == GroupsBase
    ensures l.AllStudents? ==> r.url == StudentsBase
    ensures l.AllTransactions? ==> r.url == TransactionsBase
  {
    match l
    case AllGroups => Fetch(GroupsBase)
    case AllStudents => Fetch(StudentsBase)
    case StudentAttendance(id) => Fetch(StudentQuery(AttendanceBase, id))
    case GroupAttendance(id) => Fetch(GroupQuery(AttendanceBase, id))
    case AllTransactions => Fetch(TransactionsBase)
    case StudentTransactions(id) => Fetch(StudentQuery(TransactionsBase, id))
  }

  // ------------------------------------------------ responses

  /** A listing call: `data.key || []`, whatever the status. */
  function Listed(l: Listing, data: Js): (r: Outcome)
    ensures data.Null? || data.Undefined? ==> r == Thrown(ReadOfNothing(ListKey(l)))
    ensures data.Obj? && ListKey(l) in data.fields && Truthy(data.fields[ListKey(l)]) ==> r == Returned(data.fields[ListKey(l)])
    ensures !data.Null? && !data.Undefined? && !(data.Obj? && ListKey(l) in data.fields && Truthy(data.fields[ListKey(l)])) ==> r == Returned(Arr([]))
  {
    match Get(data, ListKey(l))
    case Thrown(e) => Thrown(e)
    case Returned(v) => Returned(Or(v, Arr([])))
  }

  /** The five mutating calls. */
  datatype Mutation = Login | CreateGroup | CreateStudent | MarkAttendance | AddPayment

  /** The message a call throws when the failed response carries no usable `error`. */
  function Fallback(m: Mutation): string {
    match m
    case Login => "Ошибка авторизации"
    case CreateGroup => "Ошибка создания группы"
    case CreateStudent => "Ошибка создания ученика"
    case MarkAttendance => "Ошибка отметки посещаемости"
    case AddPayment => "Ошибка пополнения баланса"
  }

  /**
   * A mutating call: on a non-ok response it throws `data.error`, or the
   * call's fallback when that is falsy; otherwise it returns the body,
   * except `groups.create`, which returns `data.group`.
   */
  function Settled(m: Mutation, ok: bool, data: Js): (r: Outcome)
    ensures (data.Null? || data.Undefined?) && (!ok || m == CreateGroup) ==> r == Thrown(ReadOfNothing(if ok then "group" else "error"))
    ensures !ok && !data.Null? && !data.Undefined? ==>
      r == Thrown(Raised(if data.Obj? && "error" in data.fields && Truthy(data.fields["error"]) then data.fields["error"] else Str(Fallback(m))))
    ensures ok && m != CreateGroup ==> r == Returned(data)
    ensures ok && m == CreateGroup && data.Obj? ==>
      r == Returned(if "group" in data.fields then data.fields["group"] else Undefined)
    ensures ok && m == CreateGroup && !data.Obj? && !data.Null? && !data.Undefined? ==> r == Returned(Undefined)
  {
    if !ok then
      match Get(data, "error")
      case Thrown(e) => Thrown(e)
      case Returned(v) => Thrown(Raised(Or(v, Str(Fallback(m)))))
    else if m == CreateGroup then Get(data, "group")
    else Returned(data)
  }

  // ------------------------------------------------ against the handlers' replies

  /** The body of a handler's error reply, `{"error": message}`. */
  function ErrorBody(message: string): (b: Js)
    ensures b.Obj? && b.fields.Keys == {"error"} && b.fields["error"] == Str(message)
  {
    Obj(map["error" := Str(message)])
  }

  /** `response.ok`: a status in 200..299. */
  predicate IsOk(status: int) {
    200 <= status < 300
  }

  /**
   * A listing call turns a handler's error reply into an empty list, the
   * same as a successful reply with no rows: the failure is not seen.
   */
  lemma ErrorListsAsEmpty(l: Listing, message: string)
    ensures Listed(l, ErrorBody(message)) == Returned(Arr([]))
    ensures Listed(l, Obj(map[ListKey(l) := Arr([])])) == Returned(Arr([]))
  {
  }

  /**
   * A mutating call that receives an error reply with a status outside
   * 200..299 throws the handler's message, or its fallback for an empty
   * message. The lemmas below show that every refusal of the four handlers
   * is such a reply.
   */
  lemma HandlerErrorsSurface<T>(m: Mutation, reply: Reply<T>)
    requires reply.Err? && !IsOk(reply.status)
    ensures Settled(m, IsOk(reply.status), ErrorBody(reply.error))
      == Thrown(Raised(if reply.error != "" then Str(reply.error) else Str(Fallback(m))))
  {
  }

  /** The message a mutating call throws for a handler's error reply. */
  function Surfaced<T>(m: Mutation, reply: Reply<T>): Outcome
    requires reply.Err?
  {
    Thrown(Raised(if reply.error != "" then Str(reply.error) else Str(Fallback(m))))
  }

  /** Every refusal of a marking (400, 404 or 500) reaches the page as its message. */
  lemma MarkRefusalSurfaces(groups: seq<Group>, body: Parsed<Attendance.MarkRequest>)
    requires Attendance.Admit(groups, body).Rejected?
    ensures var reply := Attendance.Admit(groups, body).reply;
      reply.Err? && Settled(MarkAttendance, IsOk(reply.status), ErrorBody(reply.error)) == Surfaced(MarkAttendance, reply)
  {
    HandlerErrorsSurface(MarkAttendance, Attendance.Admit(groups, body).reply);
  }

  /** Every refused or aborted payment (400 or 500) reaches the page as its message. */
  lemma PaymentRefusalSurfaces(students: seq<Student>, body: Parsed<Transactions.PaymentRequest>)
    requires !Transactions.AdmitPayment(students, body).Accepted?
    ensures var reply := Transactions.AdmitPayment(students, body).reply;
      reply.Err? && Settled(AddPayment, IsOk(reply.status), ErrorBody(reply.error)) == Surfaced(AddPayment, reply)
  {
    Transactions.PaymentRefusals(students, body);
    HandlerErrorsSurface(AddPayment, Transactions.AdmitPayment(students, body).reply);
  }

  /** Every refused enrolment (400 or 500) reaches the page as its message. */
  lemma EnrolRefusalSurfaces(body: Parsed<Students.EnrolRequest>)
    requires Students.AdmitStudent(body).Declined?
    ensures var reply := Students.AdmitStudent(body).reply;
      reply.Err? && Settled(CreateStudent, IsOk(reply.status), ErrorBody(reply.error)) == Surfaced(CreateStudent, reply)
  {
    var reply := Students.AdmitStudent(body).reply;
    assert reply.Err? && reply.status in {400, 500};
    HandlerErrorsSurface(CreateStudent, reply);
  }

  /** Every refused or aborted group creation (400 or 500) reaches the page as its message. */
  lemma GroupRefusalSurfaces(body: Parsed<Groups.GroupRequest>)
    requires !Groups.AdmitGroup(body).Accepted?
    ensures var reply := Groups.AdmitGroup(body).reply;
      reply.Err? && Settled(CreateGroup, IsOk(reply.status), ErrorBody(reply.error)) == Surfaced(CreateGroup, reply)
  {
    var reply := Groups.AdmitGroup(body).reply;
    assert reply.Err? && reply.status in {400, 500};
    HandlerErrorsSurface(CreateGroup, reply);
  }
}

=== FILE: attendance.dfy ===
/**
 * The attendance handler: marking a session (POST), which records one row per
 * group member and charges every present member the group's per-session cost,
 * and listing attendance (GET).
 */
module Attendance {
  import opened Wrappers
  import opened Text
  import opened Decimal
  import opened Seqs
  import opened Http
  import opened Db

  const MissingFieldsMessage := "Группа и дата обязательны"
  const GroupNotFoundMessage := "Группа не найдена"
  const MarkedMessage := "Посещаемость отмечена"
  /** Start of a charge's description; the session date follows. */
  const VisitPrefix := "Посещение "

  /**
   * The POST body; absent `present_students` and `trainer_comment` default to `[]`
   * and `Some("")`, and a `null` comment is `None`, stored as `NULL`.
   */
  datatype MarkRequest = MarkRequest(
    groupId: Option<int>,
    sessionDate: Option<string>,
    presentStudents: seq<int>,
    trainerComment: Option<string>,
    trainerId: Option<int>)

  /** A marking that passed validation, with the cost read from its group. */
  datatype Session = Session(groupId: int, date: string, present: seq<int>, comment: Option<string>, trainerId: Option<int>, cost: int)

  datatype Admission = Rejected(reply: Reply<string>) | Admitted(session: Session)

  /** The checks made before anything is written: a parsable body, group and date given, the group found. */
  function Admit(groups: seq<Group>, body: Parsed<MarkRequest>): (a: Admission)
    ensures body.Malformed? ==> a == Rejected(ServerError(body.detail))
    ensures body.Parsed? && !(IdGiven(body.value.groupId) && TextGiven(body.value.sessionDate))
      ==> a == Rejected(Err(400, MissingFieldsMessage))
    ensures body.Parsed? && IdGiven(body.value.groupId) && TextGiven(body.value.sessionDate)
      ==> (a.Rejected? <==> FindGroup(groups, body.value.groupId.value).None?)
    ensures (body.Parsed? && IdGiven(body.value.groupId) && TextGiven(body.value.sessionDate) &&
             FindGroup(groups, body.value.groupId.value).None?)
      ==> a == Rejected(Err(404, GroupNotFoundMessage))
    ensures a.Rejected? ==> a.reply.Err? && a.reply.status in {400, 404, 500}
    ensures a.Admitted? ==>
      var req := body.value;
      && body.Parsed?
      && FindGroup(groups, a.session.groupId).Some?
      && a.session == Session(req.groupId.value, req.sessionDate.value, req.presentStudents, req.trainerComment,
                              req.trainerId, FindGroup(groups, req.groupId.value).value.costPerSession)
  {
    match body
    case Malformed(detail) => Rejected(ServerError(detail))
    case Parsed(req) =>
      if !IdGiven(req.groupId) || !TextGiven(req.sessionDate) then
        Rejected(Err(400, MissingFieldsMessage))
      else
        match FindGroup(groups, req.groupId.value)
        case None => Rejected(Err(404, GroupNotFoundMessage))
        case Some(g) =>
          Admitted(Session(req.groupId.value, req.sessionDate.value, req.presentStudents, req.trainerComment,
                           req.trainerId, g.costPerSession))
  }

  /** The index of the row with key `k`, if there is one (the first, should there be several). */
  function FindSession(rows: seq<AttendanceRow>, k: SessionKey): (r: Option<nat>)
    ensures r.Some? ==> r.value < |rows| && rows[r.value].Key() == k
    ensures r.Some? ==> forall j :: 0 <= j < r.value ==> rows[j].Key() != k
    ensures r.None? ==> forall j :: 0 <= j < |rows| ==> rows[j].Key() != k
  {
    if rows == [] then None
    else if rows[0].Key() == k then Some(0)
    else match FindSession(rows[1..], k)
      case None => None
      case Some(j) => Some(j + 1)
  }

  /** The row a lookup by key finds. */
  function SessionRow(rows: seq<AttendanceRow>, k: SessionKey): Option<AttendanceRow> {
    match FindSession(rows, k)
    case None => None
    case Some(j) => Some(rows[j])
  }

  /**
   * `INSERT ... ON CONFLICT (student_id, group_id, session_date) DO UPDATE SET
   * is_present, trainer_comment`: a new row charges `cost` when present, an
   * existing row keeps its `cost_charged`.
   */
  function Upsert(rows: seq<AttendanceRow>, k: SessionKey, present: bool, comment: Option<string>, cost: int): seq<AttendanceRow> {
    match FindSession(rows, k)
    case Some(j) => rows[j := rows[j].(isPresent := present, trainerComment := comment)]
    case None => rows + [AttendanceRow(k.studentId, k.groupId, k.sessionDate, present, comment, if present then cost else 0)]
  }

  function KeyOf(m: int, s: Session): SessionKey {
    SessionKey(m, s.groupId, s.date)
  }

  /** The attendance table after the loop has handled `members`, in order. */
  function UpsertAll(rows: seq<AttendanceRow>, members: seq<int>, s: Session): seq<AttendanceRow> {
    if members == [] then rows
    else
      var m := members[|members| - 1];
      Upsert(UpsertAll(rows, members[..|members| - 1], s), KeyOf(m, s), m in s.present, s.comment, s.cost)
  }

  /** The students table after the loop has handled `members`: each present one pays `cost`. */
  function ChargeAll(students: seq<Student>, members: seq<int>, s: Session): seq<Student> {
    if members == [] then students
    else
      var m := members[|members| - 1];
      var st := ChargeAll(students, members[..|members| - 1], s);
      if m in s.present then AdjustBalance(st, m, -s.cost) else st
  }

  /** The `charge` transaction a present member gets. */
  function ChargeFor(m: int, s: Session, id: int): Transaction {
    Transaction(id, m, -s.cost, Charge, VisitPrefix + s.date, s.trainerId)
  }

  /** The transactions the loop appends while handling `members`, numbered from `firstId`. */
  function Charges(members: seq<int>, s: Session, firstId: int): seq<Transaction> {
    if members == [] then []
    else
      var prev := Charges(members[..|members| - 1], s, firstId);
      var m := members[|members| - 1];
      if m in s.present then prev + [ChargeFor(m, s, firstId + |prev|)] else prev
  }

  /** What a marking leaves in the row of key `k`. */
  function MarkedRow(rows: seq<AttendanceRow>, k: SessionKey, s: Session): AttendanceRow {
    var present := k.studentId in s.present;
    AttendanceRow(k.studentId, k.groupId, k.sessionDate, present, s.comment,
      match SessionRow(rows, k)
      case Some(was) => was.costCharged
      case None => if present then s.cost else 0)
  }

  /** One upsert changes the row found under its own key and no other. */
  lemma UpsertEffect(rows: seq<AttendanceRow>, k: SessionKey, present: bool, comment: Option<string>, cost: int, k': SessionKey)
    ensures SessionRow(Upsert(rows, k, present, comment, cost), k') ==
      if k' == k then
        Some(AttendanceRow(k.studentId, k.groupId, k.sessionDate, present, comment,
          match SessionRow(rows, k) case Some(was) => was.costCharged case None => if present then cost else 0))
      else SessionRow(rows, k')
  {
    var r := Upsert(rows, k, present, comment, cost);
    match FindSession(rows, k) {
      case Some(j) =>
        assert forall i :: 0 <= i < |r| ==> r[i].Key() == rows[i].Key();
        match FindSession(r, k') {
          case Some(j') =>
            assert FindSession(rows, k') == Some(j') by {
              assert forall i :: 0 <= i < j' ==> rows[i].Key() != k';
            }
          case None =>
        }
      case None =>
        assert forall i :: 0 <= i < |rows| ==> r[i] == rows[i];
        if k' == k {
          assert r[|rows|].Key() == k;
          assert FindSession(r, k') == Some(|rows|);
        } else {
          match FindSession(r, k') {
            case Some(j') =>
              assert j' < |rows|;
            case None =>
          }
        }
    }
  }

  /**
   * After marking, the row of every member of the group for that date says
   * whether the member was present and holds the comment; its `cost_charged`
   * is the cost (or 0 when absent) only if the row is new, and otherwise keeps
   * its first value. Rows of other students, groups or dates are untouched.
   */
  lemma {:induction false} MarkedRows(rows: seq<AttendanceRow>, members: seq<int>, s: Session, k: SessionKey)
    ensures SessionRow(UpsertAll(rows, members, s), k) ==
      if k.groupId == s.groupId && k.sessionDate == s.date && k.studentId in members
      then Some(MarkedRow(rows, k, s))
      else SessionRow(rows, k)
  {
    if members != [] {
      var init := members[..|members| - 1];
      var m := members[|members| - 1];
      assert members == init + [m];
      MarkedRows(rows, init, s, k);
      UpsertEffect(UpsertAll(rows, init, s), KeyOf(m, s), m in s.present, s.comment, s.cost, k);
    }
  }

  /** Keys an upsert has not been given stay where they were. */
  lemma UpsertKeepsUnique(rows: seq<AttendanceRow>, k: SessionKey, present: bool, comment: Option<string>, cost: int)
    requires UniqueSessions(rows)
    ensures UniqueSessions(Upsert(rows, k, present, comment, cost))
    ensures |Upsert(rows, k, present, comment, cost)| >= |rows|
    ensures forall i :: 0 <= i < |rows| ==> Upsert(rows, k, present, comment, cost)[i].Key() == rows[i].Key()
    ensures forall i :: |rows| <= i < |Upsert(rows, k, present, comment, cost)| ==> Upsert(rows, k, present, comment, cost)[i].Key() == k
  {
  }

  /**
   * Members charged once each: a present member's balance drops by exactly
   * the cost; absent members and everyone outside the group keep theirs.
   */
  lemma {:induction false} ChargedBalances(students: seq<Student>, members: seq<int>, s: Session)
    requires NoDuplicates(members)
    ensures |ChargeAll(students, members, s)| == |students|
    ensures forall i :: 0 <= i < |students| ==>
      ChargeAll(students, members, s)[i] == students[i].(balance := students[i].balance -
        (if students[i].id in members && students[i].id in s.present then s.cost else 0))
  {
    if members != [] {
      var init := members[..|members| - 1];
      var m := members[|members| - 1];
      assert members == init + [m];
      ChargedBalances(students, init, s);
    }
  }

  /** The appended charges: one per present member, each of minus the cost, described by the date. */
  lemma {:induction false} ChargesShape(members: seq<int>, s: Session, firstId: int)
    ensures forall i :: 0 <= i < |Charges(members, s, firstId)| ==>
      var t := Charges(members, s, firstId)[i];
      && t == ChargeFor(t.studentId, s, firstId + i)
      && t.studentId in members && t.studentId in s.present
  {
    if members != [] {
      var init := members[..|members| - 1];
      var m := members[|members| - 1];
      assert members == init + [m];
      ChargesShape(init, s, firstId);
      var prev := Charges(init, s, firstId);
      var all := Charges(members, s, firstId);
      forall i | 0 <= i < |all|
        ensures all[i] == ChargeFor(all[i].studentId, s, firstId + i)
        ensures all[i].studentId in members && all[i].studentId in s.present
      {
        if i < |prev| {
          assert all[i] == prev[i];
        }
      }
    }
  }

  /** A member's charges add up to minus the cost when present and to nothing otherwise. */
  lemma {:induction false} ChargesLedger(members: seq<int>, s: Session, firstId: int, studentId: int)
    requires NoDuplicates(members)
    ensures LedgerSum(Charges(members, s, firstId), studentId) ==
      if studentId in members && studentId in s.present then -s.cost else 0
  {
    if members == [] {
    } else {
      var init := members[..|members| - 1];
      var m := members[|members| - 1];
      assert members == init + [m];
      ChargesLedger(init, s, firstId, studentId);
      var prev := Charges(init, s, firstId);
      if m in s.present {
        LedgerSumAppend(prev, ChargeFor(m, s, firstId + |prev|), studentId);
      }
    }
  }

  /** Marking keeps every balance equal to the sum of its student's transactions. */
  lemma {:induction false} MarkingKeepsBalanced(students: seq<Student>, txs: seq<Transaction>, members: seq<int>, s: Session, firstId: int)
    requires Balanced(students, txs)
    ensures Balanced(ChargeAll(students, members, s), txs + Charges(members, s, firstId))
  {
    if members != [] {
      var init := members[..|members| - 1];
      var m := members[|members| - 1];
      MarkingKeepsBalanced(students, txs, init, s, firstId);
      var prev := Charges(init, s, firstId);
      if m in s.present {
        var t := ChargeFor(m, s, firstId + |prev|);
        PostingKeepsBalanced(ChargeAll(students, init, s), txs + prev, t);
        assert ChargeAll(students, members, s) == AdjustBalance(ChargeAll(students, init, s), t.studentId, t.amount);
        assert Charges(members, s, firstId) == prev + [t];
        assert txs + (prev + [t]) == (txs + prev) + [t];
      } else {
        assert ChargeAll(students, members, s) == ChargeAll(students, init, s);
        assert Charges(members, s, firstId) == prev;
      }
    } else {
      assert txs + [] == txs;
    }
  }

  /** An upsert that finds its row already holding the same presence and comment changes nothing. */
  lemma UpsertUnchanged(rows: seq<AttendanceRow>, k: SessionKey, present: bool, comment: Option<string>, cost: int)
    requires SessionRow(rows, k).Some?
    requires SessionRow(rows, k).value.isPresent == present && SessionRow(rows, k).value.trainerComment == comment
    ensures Upsert(rows, k, present, comment, cost) == rows
  {
  }

  /** Marking a second time with rows already as the marking leaves them changes no row. */
  lemma {:induction false} UpsertAllUnchanged(rows: seq<AttendanceRow>, members: seq<int>, s: Session)
    requires forall m :: m in members ==>
      SessionRow(rows, KeyOf(m, s)).Some? &&
      SessionRow(rows, KeyOf(m, s)).value.isPresent == (m in s.present) &&
      SessionRow(rows, KeyOf(m, s)).value.trainerComment == s.comment
    ensures UpsertAll(rows, members, s) == rows
  {
    if members != [] {
      var init := members[..|members| - 1];
      var m := members[|members| - 1];
      UpsertAllUnchanged(rows, init, s);
      UpsertUnchanged(rows, KeyOf(m, s), m in s.present, s.comment, s.cost);
    }
  }

  /**
   * Marking is not idempotent: repeating the same marking leaves the
   * attendance table as it was, yet charges every present member again.
   */
  lemma RemarkChargesAgain(rows: seq<AttendanceRow>, students: seq<Student>, members: seq<int>, s: Session)
    requires NoDuplicates(members)
    ensures var rows1 := UpsertAll(rows, members, s);
      UpsertAll(rows1, members, s) == rows1
    ensures var twice := ChargeAll(ChargeAll(students, members, s), members, s);
      && |twice| == |students|
      && forall i :: 0 <= i < |students| ==>
        twice[i].balance == students[i].balance -
          (if students[i].id in members && students[i].id in s.present then 2 * s.cost else 0)
  {
    var rows1 := UpsertAll(rows, members, s);
    forall m | m in members
      ensures SessionRow(rows1, KeyOf(m, s)).Some?
      ensures SessionRow(rows1, KeyOf(m, s)).value.isPresent == (m in s.present)
      ensures SessionRow(rows1, KeyOf(m, s)).value.trainerComment == s.comment
    {
      MarkedRows(rows, members, s, KeyOf(m, s));
    }
    UpsertAllUnchanged(rows1, members, s);
    ChargedBalances(students, members, s);
    ChargedBalances(ChargeAll(students, members, s), members, s);
  }

  /**
   * Re-marking a session with everybody absent refunds nothing: balances stay,
   * and each row turns absent while keeping the cost it first recorded.
   */
  lemma UnmarkRefundsNothing(rows: seq<AttendanceRow>, students: seq<Student>, members: seq<int>, s: Session, m: int)
    requires NoDuplicates(members) && m in members
    ensures var absent := s.(present := []);
      && ChargeAll(students, members, absent) == students
      && SessionRow(UpsertAll(rows, members, s), KeyOf(m, s)).Some?
      && SessionRow(UpsertAll(UpsertAll(rows, members, s), members, absent), KeyOf(m, s)).Some?
      && SessionRow(UpsertAll(UpsertAll(rows, members, s), members, absent), KeyOf(m, s)).value.isPresent == false
      && SessionRow(UpsertAll(UpsertAll(rows, members, s), members, absent), KeyOf(m, s)).value.costCharged
         == SessionRow(UpsertAll(rows, members, s), KeyOf(m, s)).value.costCharged
  {
    var absent := s.(present := []);
    ChargedBalances(students, members, absent);
    var rows1 := UpsertAll(rows, members, s);
    MarkedRows(rows, members, s, KeyOf(m, s));
    MarkedRows(rows1, members, absent, KeyOf(m, s));
  }

  /** An upsert of a row whose student and group exist keeps the table's constraints. */
  lemma UpsertKeepsReferences(rows: seq<AttendanceRow>, k: SessionKey, present: bool, comment: Option<string>, cost: int,
                              students: seq<Student>, groups: seq<Group>)
    requires UniqueSessions(rows) && RowsReferTo(rows, students, groups)
    requires HasStudent(students, k.studentId) && FindGroup(groups, k.groupId).Some?
    ensures UniqueSessions(Upsert(rows, k, present, comment, cost))
    ensures RowsReferTo(Upsert(rows, k, present, comment, cost), students, groups)
  {
    UpsertKeepsUnique(rows, k, present, comment, cost);
  }

  /** Marking every member keeps the attendance table's constraints. */
  lemma {:induction false} UpsertAllKeepsReferences(rows: seq<AttendanceRow>, members: seq<int>, s: Session,
                                                    students: seq<Student>, groups: seq<Group>)
    requires UniqueSessions(rows) && RowsReferTo(rows, students, groups)
    requires forall m :: m in members ==> HasStudent(students, m)
    requires FindGroup(groups, s.groupId).Some?
    ensures UniqueSessions(UpsertAll(rows, members, s)) && RowsReferTo(UpsertAll(rows, members, s), students, groups)
  {
    if members != [] {
      var init := members[..|members| - 1];
      var m := members[|members| - 1];
      UpsertAllKeepsReferences(rows, init, s, students, groups);
      UpsertKeepsReferences(UpsertAll(rows, init, s), KeyOf(m, s), m in s.present, s.comment, s.cost, students, groups);
    }
  }

  /** The charges of a marking keep the transactions' constraints. */
  lemma {:induction false} ChargesKeepReferences(txs: seq<Transaction>, next: int, members: seq<int>, s: Session, students: seq<Student>)
    requires TransactionIdsIssued(txs, next) && TxsReferTo(txs, students)
    requires forall m :: m in members ==> HasStudent(students, m)
    ensures var all := txs + Charges(members, s, next);
      TransactionIdsIssued(all, next + |Charges(members, s, next)|) && TxsReferTo(all, students)
  {
    if members != [] {
      var init := members[..|members| - 1];
      var m := members[|members| - 1];
      ChargesKeepReferences(txs, next, init, s, students);
      var prev := Charges(init, s, next);
      if m in s.present {
        var t := ChargeFor(m, s, next + |prev|);
        PostKeepsReferences(txs + prev, next + |prev|, t, students);
        assert txs + (prev + [t]) == (txs + prev) + [t];
      }
    }
  }

  /** Charging changes balances only. */
  lemma {:induction false} ChargeAllSameStudents(students: seq<Student>, members: seq<int>, s: Session)
    ensures SameStudents(students, ChargeAll(students, members, s))
  {
    if members != [] {
      ChargeAllSameStudents(students, members[..|members| - 1], s);
    }
  }

  /** One turn of the loop: the member's upsert and, when present, the member's charge. */
  function Visit(db: Tables, m: int, s: Session): Tables {
    var upserted := db.(attendance := Upsert(db.attendance, KeyOf(m, s), m in s.present, s.comment, s.cost));
    if m in s.present then Posted(upserted, ChargeFor(m, s, db.nextTransactionId)) else upserted
  }

  /** The database after the loop has handled `members`, in order. */
  function MarkedBy(db: Tables, members: seq<int>, s: Session): Tables {
    if members == [] then db
    else Visit(MarkedBy(db, members[..|members| - 1], s), members[|members| - 1], s)
  }

  /** The database after marking session `s`: every member of its group handled. */
  function Marked(db: Tables, s: Session): Tables {
    MarkedBy(db, Members(db.students, s.groupId), s)
  }

  /**
   * Table by table, the loop upserts one row per member, charges the present
   * ones and appends their charges, and touches nothing else.
   */
  lemma {:induction false} MarkedByTables(db: Tables, members: seq<int>, s: Session)
    ensures MarkedBy(db, members, s) == db.(
      attendance := UpsertAll(db.attendance, members, s),
      students := ChargeAll(db.students, members, s),
      transactions := db.transactions + Charges(members, s, db.nextTransactionId),
      nextTransactionId := db.nextTransactionId + |Charges(members, s, db.nextTransactionId)|)
  {
    if members == [] {
      assert db.transactions + [] == db.transactions;
    } else {
      var init := members[..|members| - 1];
      var m := members[|members| - 1];
      MarkedByTables(db, init, s);
      var prev := Charges(init, s, db.nextTransactionId);
      if m in s.present {
        var t := ChargeFor(m, s, db.nextTransactionId + |prev|);
        assert db.transactions + (prev + [t]) == (db.transactions + prev) + [t];
      }
    }
  }

  /** Marking a session of an existing group keeps the database constraints and the ledger invariant. */
  lemma MarkingKeepsInvariants(db: Tables, s: Session)
    requires FindGroup(db.groups, s.groupId).Some?
    ensures ValidTables(db) ==> ValidTables(Marked(db, s))
    ensures LedgerOf(db) ==> LedgerOf(Marked(db, s))
  {
    var members := Members(db.students, s.groupId);
    MarkedByTables(db, members, s);
    var r := Marked(db, s);
    assert forall m :: m in members ==> HasStudent(db.students, m) by {
      forall m | m in members ensures HasStudent(db.students, m) {
        assert InGroup(db.students, s.groupId, m);
      }
    }
    if ValidTables(db) {
      UpsertAllKeepsReferences(db.attendance, members, s, db.students, db.groups);
      ChargesKeepReferences(db.transactions, db.nextTransactionId, members, s, db.students);
      ChargeAllSameStudents(db.students, members, s);
      SameStudentsKeepReferences(db.students, r.students, db.users, db.groups, r.attendance, r.transactions, db.nextStudentId);
    }
    if LedgerOf(db) {
      MarkingKeepsBalanced(db.students, db.transactions, members, s, db.nextTransactionId);
    }
  }

  /** One turn of the loop, on the database. */
  method MarkMember(db: Database, m: int, s: Session)
    modifies db
    ensures db.Snapshot() == Visit(old(db.Snapshot()), m, s)
  {
    var present := m in s.present;
    db.attendance := Upsert(db.attendance, KeyOf(m, s), present, s.comment, s.cost);
    if present {
      db.Post(ChargeFor(m, s, db.nextTransactionId));
    }
  }

  /**
   * The loop of the POST branch: one upsert per member, in order, and for each
   * present member a balance decrement and a `charge` transaction.
   */
  method MarkMembers(db: Database, members: seq<int>, s: Session)
    modifies db
    ensures db.Snapshot() == MarkedBy(old(db.Snapshot()), members, s)
  {
    ghost var db0 := db.Snapshot();
    var k := 0;
    while k < |members|
      invariant 0 <= k <= |members|
      invariant db.Snapshot() == MarkedBy(db0, members[..k], s)
    {
      MarkMember(db, members[k], s);
      assert members[..k + 1][..k] == members[..k];
      k := k + 1;
    }
    assert members[..k] == members;
  }

  /**
   * The POST branch: validation, then the marking of every member of the
   * group, committed together; a rejected request changes nothing.
   */
  method Mark(db: Database, body: Parsed<MarkRequest>) returns (reply: Reply<string>)
    requires db.Valid()
    modifies db
    ensures db.Valid()
    ensures old(db.LedgerBalanced()) ==> db.LedgerBalanced()
    ensures match Admit(old(db.groups), body)
      case Rejected(r) => reply == r && db.Snapshot() == old(db.Snapshot())
      case Admitted(s) => reply == Ok(200, MarkedMessage) && db.Snapshot() == Marked(old(db.Snapshot()), s)
  {
    var admission := Admit(db.groups, body);
    if admission.Rejected? {
      return admission.reply;
    }
    var s := admission.session;
    MarkingKeepsInvariants(db.Snapshot(), s);
    var members := Members(db.students, s.groupId);
    MarkMembers(db, members, s);
    reply := Ok(200, MarkedMessage);
  }

  // ---------------------------------------------------------------- GET

  /** Which of the three listing queries a GET runs. */
  datatype AttendanceQuery = ByStudent(studentId: int) | ByGroup(groupId: int) | Everything

  /**
   * The query of a GET: a non-empty `student_id` wins over `group_id`. An id
   * PostgreSQL cannot read as an `integer` makes the query fail.
   */
  function Select(studentParam: Option<string>, groupParam: Option<string>): (r: Parsed<AttendanceQuery>)
    ensures TextGiven(studentParam) ==>
      match ReadId(studentParam.value)
      case Some(id) => r == Parsed(ByStudent(id))
      case None => r.Malformed?
    ensures !TextGiven(studentParam) && TextGiven(groupParam) ==>
      match ReadId(groupParam.value)
      case Some(id) => r == Parsed(ByGroup(id))
      case None => r.Malformed?
    ensures !TextGiven(studentParam) && !TextGiven(groupParam) ==> r == Parsed(Everything)
  {
    if TextGiven(studentParam) then
      match ReadId(studentParam.value)
      case Some(id) => Parsed(ByStudent(id))
      case None => Malformed(InvalidIdDetail(studentParam.value))
    else if TextGiven(groupParam) then
      match ReadId(groupParam.value)
      case Some(id) => Parsed(ByGroup(id))
      case None => Malformed(InvalidIdDetail(groupParam.value))
    else
      Parsed(Everything)
  }

  /** Given a student id, the group id plays no part. */
  lemma StudentParamTakesPrecedence(studentParam: Option<string>, groupParam: Option<string>, otherGroupParam: Option<string>)
    requires TextGiven(studentParam)
    ensures Select(studentParam, groupParam) == Select(studentParam, otherGroupParam)
    ensures Select(studentParam, groupParam).Parsed? ==> Select(studentParam, groupParam).value.ByStudent?
  {
  }

  /** An id printed in decimal selects that student's records. */
  lemma PrintedIdSelects(id: int, groupParam: Option<string>)
    requires InInt4(id)
    ensures Select(Some(IntToDecimal(id)), groupParam) == Parsed(ByStudent(id))
  {
    ParseIntegerRoundTrip(id);
  }

  /** `LIMIT 500` for a group's records, `LIMIT 100` otherwise. */
  function Limit(q: AttendanceQuery): nat {
    if q.ByGroup? then 500 else 100
  }

  predicate Matches(q: AttendanceQuery, row: AttendanceRow) {
    match q
    case ByStudent(id) => row.studentId == id
    case ByGroup(id) => row.groupId == id
    case Everything => true
  }

  /** A record of the listing: the row with the joined student and group names the query selects. */
  datatype AttendanceView = AttendanceView(row: AttendanceRow, studentName: Option<string>, groupName: Option<string>)

  /** The full name of the student's account, through `students.user_id`. */
  function StudentName(students: seq<Student>, users: seq<User>, studentId: int): Option<string> {
    match FindStudent(students, studentId)
    case None => None
    case Some(i) =>
      match FindUser(users, students[i].userId)
      case None => None
      case Some(u) => Some(u.fullName)
  }

  function GroupName(groups: seq<Group>, groupId: int): Option<string> {
    match FindGroup(groups, groupId)
    case None => None
    case Some(g) => Some(g.name)
  }

  /**
   * The row as the query's inner joins return it: the student's records carry the
   * group name, the group's records the student name, the full listing both; a
   * row whose joined student or group is missing is dropped.
   */
  function JoinRow(q: AttendanceQuery, row: AttendanceRow, students: seq<Student>, users: seq<User>, groups: seq<Group>): (r: Option<AttendanceView>)
    ensures r.Some? ==> r.value.row == row && Matches(q, row)
    ensures r.Some? ==> (r.value.studentName.Some? <==> !q.ByStudent?) && (r.value.groupName.Some? <==> !q.ByGroup?)
    ensures r.Some? && r.value.studentName.Some? ==> r.value.studentName == StudentName(students, users, row.studentId)
    ensures r.Some? && r.value.groupName.Some? ==> r.value.groupName == GroupName(groups, row.groupId)
    ensures Matches(q, row) && StudentName(students, users, row.studentId).Some? && GroupName(groups, row.groupId).Some? ==> r.Some?
  {
    if !Matches(q, row) then None
    else
      var studentName := StudentName(students, users, row.studentId);
      var groupName := GroupName(groups, row.groupId);
      match q
      case ByStudent(_) => if groupName.Some? then Some(AttendanceView(row, None, groupName)) else None
      case ByGroup(_) => if studentName.Some? then Some(AttendanceView(row, studentName, None)) else None
      case Everything => if studentName.Some? && groupName.Some? then Some(AttendanceView(row, studentName, groupName)) else None
  }

  /** The joined rows of the query, in table order. */
  function Joined(q: AttendanceQuery, rows: seq<AttendanceRow>, students: seq<Student>, users: seq<User>, groups: seq<Group>): (r: seq<AttendanceView>)
    ensures |r| <= |rows|
    ensures forall v :: v in r ==> v.row in rows && Matches(q, v.row)
  {
    if rows == [] then []
    else
      (match JoinRow(q, rows[0], students, users, groups) case Some(v) => [v] case None => [])
      + Joined(q, rows[1..], students, users, groups)
  }

  /** `WHERE` alone: the rows the query selects, in table order. */
  function MatchingRows(q: AttendanceQuery, rows: seq<AttendanceRow>): (r: seq<AttendanceRow>)
    ensures forall row :: row in r <==> row in rows && Matches(q, row)
  {
    if rows == [] then []
    else (if Matches(q, rows[0]) then [rows[0]] else []) + MatchingRows(q, rows[1..])
  }

  function RowsOf(vs: seq<AttendanceView>): (r: seq<AttendanceRow>)
    ensures |r| == |vs| && forall i :: 0 <= i < |vs| ==> r[i] == vs[i].row
  {
    if vs == [] then [] else [vs[0].row] + RowsOf(vs[1..])
  }

  /**
   * When every row's student, the student's account and the row's group exist
   * (the database's constraints), the joins drop nothing: the query returns
   * exactly the rows its `WHERE` selects.
   */
  lemma {:induction false} JoinsDropNothing(q: AttendanceQuery, rows: seq<AttendanceRow>, students: seq<Student>, users: seq<User>, groups: seq<Group>)
    requires RowsReferTo(rows, students, groups) && StudentsHaveUsers(students, users)
    ensures RowsOf(Joined(q, rows, students, users, groups)) == MatchingRows(q, rows)
  {
    if rows != [] {
      assert RowsReferTo(rows[1..], students, groups) by {
        assert forall i :: 0 <= i < |rows[1..]| ==> rows[1..][i] == rows[i + 1];
      }
      JoinsDropNothing(q, rows[1..], students, users, groups);
      JoinRowFound(q, rows[0], students, users, groups);
      var head := match JoinRow(q, rows[0], students, users, groups) case Some(v) => [v] case None => [];
      var tail := Joined(q, rows[1..], students, users, groups);
      assert RowsOf(head + tail) == RowsOf(head) + RowsOf(tail);
    }
  }

  /** A row whose student, account and group exist survives the joins exactly when it matches. */
  lemma JoinRowFound(q: AttendanceQuery, row: AttendanceRow, students: seq<Student>, users: seq<User>, groups: seq<Group>)
    requires HasStudent(students, row.studentId) && FindGroup(groups, row.groupId).Some?
    requires StudentsHaveUsers(students, users)
    ensures JoinRow(q, row, students, users, groups).Some? <==> Matches(q, row)
  {
    var i := FindStudent(students, row.studentId).value;
    assert FindUser(users, students[i].userId).Some?;
  }

  /** `ORDER BY a.session_date DESC`. */
  predicate LaterOrSame(a: AttendanceView, b: AttendanceView) {
    StrLe(b.row.sessionDate, a.row.sessionDate)
  }

  /** `ORDER BY a.session_date DESC, u.full_name`. */
  predicate LaterThenByName(a: AttendanceView, b: AttendanceView) {
    if a.row.sessionDate == b.row.sessionDate then StrLe(a.studentName.GetOr(""), b.studentName.GetOr(""))
    else StrLe(b.row.sessionDate, a.row.sessionDate)
  }

  function OrderOf(q: AttendanceQuery): (AttendanceView, AttendanceView) -> bool {
    if q.ByGroup? then LaterThenByName else LaterOrSame
  }

  lemma OrderTotal(q: AttendanceQuery)
    ensures Total(OrderOf(q))
  {
    forall a: AttendanceView, b: AttendanceView ensures OrderOf(q)(a, b) || OrderOf(q)(b, a) {
      StrLeTotal(a.row.sessionDate, b.row.sessionDate);
      StrLeTotal(a.studentName.GetOr(""), b.studentName.GetOr(""));
    }
  }

  /** Both listing orders are transitive, so a sorted listing is ordered throughout. */
  lemma OrderTransitive(q: AttendanceQuery)
    ensures Transitive(OrderOf(q))
  {
    forall a: AttendanceView, b: AttendanceView, c: AttendanceView | OrderOf(q)(a, b) && OrderOf(q)(b, c)
      ensures OrderOf(q)(a, c)
    {
      if q.ByGroup? {
        if a.row.sessionDate == b.row.sessionDate == c.row.sessionDate {
          StrLeTransitive(a.studentName.GetOr(""), b.studentName.GetOr(""), c.studentName.GetOr(""));
        } else if a.row.sessionDate != b.row.sessionDate && b.row.sessionDate != c.row.sessionDate {
          StrLeTransitive(c.row.sessionDate, b.row.sessionDate, a.row.sessionDate);
          if a.row.sessionDate == c.row.sessionDate {
            StrLeAntisymmetric(a.row.sessionDate, b.row.sessionDate);
          }
        }
      } else {
        StrLeTransitive(c.row.sessionDate, b.row.sessionDate, a.row.sessionDate);
      }
    }
  }

  /**
   * The records a GET returns: the joined rows, newest session first (for a
   * group, then by student name), at most `Limit(q)` of them, and the ones
   * kept are ordered before every one the limit drops.
   */
  function Listing(q: AttendanceQuery, rows: seq<AttendanceRow>, students: seq<Student>, users: seq<User>, groups: seq<Group>): (r: seq<AttendanceView>)
    ensures var all := Joined(q, rows, students, users, groups);
      && |r| == (if |all| < Limit(q) then |all| else Limit(q))
      && multiset(r) <= multiset(all)
    ensures SortedBy(r, OrderOf(q))
    ensures forall v :: v in r ==> v.row in rows && Matches(q, v.row)
    ensures forall v, w :: v in r && w in multiset(Joined(q, rows, students, users, groups)) - multiset(r) ==> OrderOf(q)(v, w)
  {
    var all := Joined(q, rows, students, users, groups);
    var sorted := SortBy(all, OrderOf(q));
    OrderTotal(q);
    SortBySorted(all, OrderOf(q));
    var r := Take(sorted, Limit(q));
    OrderTransitive(q);
    TakeKeepsFirst(sorted, OrderOf(q), Limit(q));
    assert sorted == r + sorted[|r|..];
    assert multiset(sorted) == multiset(r) + multiset(sorted[|r|..]);
    assert forall v :: v in r ==> v in multiset(sorted);
    assert SortedBy(r, OrderOf(q)) by {
      forall i | 0 < i < |r| ensures OrderOf(q)(r[i - 1], r[i]) {
        assert r[i - 1] == sorted[i - 1] && r[i] == sorted[i];
      }
    }
    r
  }

  /** The GET branch's reply. */
  function ListReply(studentParam: Option<string>, groupParam: Option<string>,
                     rows: seq<AttendanceRow>, students: seq<Student>, users: seq<User>, groups: seq<Group>): (r: Reply<seq<AttendanceView>>)
    ensures r.Ok? <==> Select(studentParam, groupParam).Parsed?
    ensures r.Ok? ==> r.status == 200 && r.value == Listing(Select(studentParam, groupParam).value, rows, students, users, groups)
    ensures r.Err? ==> r.status == 500
  {
    match Select(studentParam, groupParam)
    case Malformed(detail) => ServerError(detail)
    case Parsed(q) => Ok(200, Listing(q, rows, students, users, groups))
  }

  /** What the attendance handler answers with. */
  datatype AttendancePayload = Preflighted | MarkedPayload(message: string) | Records(attendance: seq<AttendanceView>)

  /** The handler: routing on the HTTP method, then the branch. */
  method Handle(db: Database, httpMethod: Option<string>, body: Parsed<MarkRequest>,
                studentParam: Option<string>, groupParam: Option<string>) returns (reply: Reply<AttendancePayload>)
    requires db.Valid()
    modifies db
    ensures db.Valid()
    ensures old(db.LedgerBalanced()) ==> db.LedgerBalanced()
    ensures RouteOf(httpMethod) != Submit ==> db.Snapshot() == old(db.Snapshot())
    ensures RouteOf(httpMethod) == Preflight ==> reply == Ok(200, Preflighted)
    ensures RouteOf(httpMethod) == NotAllowed ==> reply == Err(405, MethodNotAllowedMessage)
    ensures RouteOf(httpMethod) == Query ==>
      reply == match ListReply(studentParam, groupParam, db.attendance, db.students, db.users, db.groups)
               case Ok(status, records) => Ok(status, Records(records))
               case Err(status, error) => Err(status, error)
    ensures RouteOf(httpMethod) == Submit ==>
      match Admit(old(db.groups), body)
      case Rejected(r) => reply == Err(r.status, r.error) && db.Snapshot() == old(db.Snapshot())
      case Admitted(s) => reply == Ok(200, MarkedPayload(MarkedMessage)) && db.Snapshot() == Marked(old(db.Snapshot()), s)
  {
    match RouteOf(httpMethod)
    case Preflight =>
      reply := Ok(200, Preflighted);
    case NotAllowed =>
      reply := Err(405, MethodNotAllowedMessage);
    case Query =>
      reply := match ListReply(studentParam, groupParam, db.attendance, db.students, db.users, db.groups)
               case Ok(status, records) => Ok(status, Records(records))
               case Err(status, error) => Err(status, error);
    case Submit =>
      var r := Mark(db, body);
      reply := match r
               case Ok(status, message) => Ok(status, MarkedPayload(message))
               case Err(status, error) => Err(status, error);
  }
}

=== FILE: dashboard.dfy ===
/**
 * The dashboard page's derived values: the summary cards (students, average
 * attendance, total balance, total debt), the debtor list, the avatar
 * initials, the attendance badge, the sign shown before amounts and the
 * weekly schedule grid.
 */
module Dashboard {
  import opened Decimal

  /** A student card as the page holds it. */
  datatype StudentCard = StudentCard(id: int, name: string, balance: int, attendance: int, group: string, lastVisit: string)

  /** The page's built-in student list. */
  const MockStudents: seq<StudentCard> := [
    StudentCard(1, "Иванов Артём", 1200, 92, "САМБО 7-9 лет", "2026-01-15"),
    StudentCard(2, "Петрова Мария", -300, 87, "САМБО 7-9 лет", "2026-01-14"),
    StudentCard(3, "Сидоров Максим", 600, 95, "Юниоры", "2026-01-16"),
    StudentCard(4, "Кузнецова Анна", -600, 78, "Юниоры", "2026-01-13")
  ]

  // ------------------------------------------------ balances

  /** `students.filter(s => s.balance < 0)`: the debtors, in list order. */
  function Debtors(students: seq<StudentCard>): (r: seq<StudentCard>)
    ensures |r| <= |students|
    ensures forall s :: s in r <==> s in students && s.balance < 0
  {
    if students == [] then []
    else
      var init := students[..|students| - 1];
      var last := students[|students| - 1];
      assert forall s :: s in students <==> s in init || s == last;
      Debtors(init) + (if last.balance < 0 then [last] else [])
  }

  /** Filtering a concatenation filters each part, keeping their order. */
  lemma {:induction false} DebtorsAppend(a: seq<StudentCard>, b: seq<StudentCard>)
    ensures Debtors(a + b) == Debtors(a) + Debtors(b)
  {
    if b != [] {
      var init := b[..|b| - 1];
      assert (a + b)[..|a + b| - 1] == a + init;
      var last := b[|b| - 1];
      assert (a + b)[|a + b| - 1] == last;
      DebtorsAppend(a, init);
      assert Debtors(b) == Debtors(init) + (if last.balance < 0 then [last] else []);
      assert Debtors(a + b) == Debtors(a + init) + (if last.balance < 0 then [last] else []);
    } else {
      assert a + b == a;
    }
  }

  lemma DebtorsSingle(x: StudentCard)
    ensures Debtors([x]) == if x.balance < 0 then [x] else []
  {
    assert [x][..0] == [];
  }

  /** Debtors of debtors are the same debtors. */
  lemma {:induction false} DebtorsIdempotent(students: seq<StudentCard>)
    ensures Debtors(Debtors(students)) == Debtors(students)
  {
    if students != [] {
      var init := students[..|students| - 1];
      var last := students[|students| - 1];
      DebtorsIdempotent(init);
      DebtorsAppend(Debtors(init), if last.balance < 0 then [last] else []);
      DebtorsSingle(last);
    }
  }

  /** `reduce((sum, s) => sum + Math.abs(s.balance), 0)`. */
  function Debt(students: seq<StudentCard>): int {
    if students == [] then 0
    else
      var last := students[|students| - 1];
      Debt(students[..|students| - 1]) + (if last.balance < 0 then -last.balance else last.balance)
  }

  /** `totalDebt`: the filter of the debtors, then the sum of their absolute balances. */
  function TotalDebt(students: seq<StudentCard>): int {
    Debt(Debtors(students))
  }

  /** `totalBalance`: `reduce((sum, s) => sum + s.balance, 0)`. */
  function TotalBalance(students: seq<StudentCard>): int {
    if students == [] then 0 else TotalBalance(students[..|students| - 1]) + students[|students| - 1].balance
  }

  /** What each student owes, summed in one pass: the reference for the debt. */
  function Owed(students: seq<StudentCard>): int {
    if students == [] then 0
    else
      var last := students[|students| - 1];
      Owed(students[..|students| - 1]) + (if last.balance < 0 then -last.balance else 0)
  }

  /** The sum of the balances that are not negative. */
  function Credit(students: seq<StudentCard>): int {
    if students == [] then 0
    else
      var last := students[|students| - 1];
      Credit(students[..|students| - 1]) + (if last.balance >= 0 then last.balance else 0)
  }

  /** Filtering then summing is what each student owes, summed. */
  lemma {:induction false} TotalDebtIsOwed(students: seq<StudentCard>)
    ensures TotalDebt(students) == Owed(students)
  {
    if students != [] {
      var init := students[..|students| - 1];
      var last := students[|students| - 1];
      TotalDebtIsOwed(init);
      var d := Debtors(students);
      if last.balance < 0 {
        assert d[..|d| - 1] == Debtors(init) && d[|d| - 1] == last;
      } else {
        assert d == Debtors(init);
      }
    }
  }

  lemma {:induction false} OwedSign(students: seq<StudentCard>)
    ensures Owed(students) >= 0
    ensures Owed(students) == 0 <==> forall i :: 0 <= i < |students| ==> students[i].balance >= 0
  {
    if students != [] {
      var init := students[..|students| - 1];
      OwedSign(init);
      assert forall i :: 0 <= i < |init| ==> init[i] == students[i];
    }
  }

  /** The debt is never negative, and it is zero exactly when nobody owes. */
  lemma DebtSign(students: seq<StudentCard>)
    ensures TotalDebt(students) >= 0
    ensures TotalDebt(students) == 0 <==> Debtors(students) == []
  {
    TotalDebtIsOwed(students);
    OwedSign(students);
    if Debtors(students) != [] {
      var x := Debtors(students)[0];
      assert x in Debtors(students);
      var i :| 0 <= i < |students| && students[i] == x;
    } else {
      forall i | 0 <= i < |students| ensures students[i].balance >= 0 {
        assert students[i] !in Debtors(students);
      }
    }
  }

  /** What the debtors owe and what the others hold add up to the balance of all. */
  lemma BalanceIsCreditLessDebt(students: seq<StudentCard>)
    ensures TotalBalance(students) + TotalDebt(students) == Credit(students)
  {
    TotalDebtIsOwed(students);
    BalanceOwedCredit(students);
  }

  lemma {:induction false} BalanceOwedCredit(students: seq<StudentCard>)
    ensures TotalBalance(students) + Owed(students) == Credit(students)
  {
    if students != [] {
      BalanceOwedCredit(students[..|students| - 1]);
    }
  }

  // ------------------------------------------------ average attendance

  /** `Math.round` of a quotient: a number, or `NaN` for `0 / 0`. */
  datatype Average = NotANumber | Rounded(value: int)

  /**
   * `avgAttendance`: `Math.round(sum / count)` with no guard for an empty list.
   * `Math.round` takes the nearest integer, halves upwards.
   */
  function AvgAttendance(students: seq<StudentCard>): (r: Average)
    ensures students == [] <==> r == NotANumber
    ensures r.Rounded? ==>
      var total := Attendance(students);
      var n := |students|;
      2 * n * r.value <= 2 * total + n < 2 * n * (r.value + 1)
  {
    if students == [] then NotANumber
    else
      var n := |students|;
      var q := (2 * Attendance(students) + n) / (2 * n);
      assert 2 * n * q <= 2 * Attendance(students) + n < 2 * n * (q + 1);
      Rounded(q)
  }

  /** `reduce((sum, s) => sum + s.attendance, 0)`. */
  function Attendance(students: seq<StudentCard>): int {
    if students == [] then 0 else Attendance(students[..|students| - 1]) + students[|students| - 1].attendance
  }

  lemma {:induction false} AttendanceBounds(students: seq<StudentCard>, lo: int, hi: int)
    requires forall i :: 0 <= i < |students| ==> lo <= students[i].attendance <= hi
    ensures |students| * lo <= Attendance(students) <= |students| * hi
  {
    if students != [] {
      AttendanceBounds(students[..|students| - 1], lo, hi);
    }
  }

  /** The average of percentages in 0..100 is itself in 0..100. */
  lemma AverageInRange(students: seq<StudentCard>)
    requires students != []
    requires forall i :: 0 <= i < |students| ==> 0 <= students[i].attendance <= 100
    ensures 0 <= AvgAttendance(students).value <= 100
  {
    AttendanceBounds(students, 0, 100);
    var c := 2 * |students|;
    var r := AvgAttendance(students).value;
    MulCancel(0, r + 1, c);
    MulCancel(r, 101, c);
  }

  lemma MulCancel(a: int, b: int, c: nat)
    requires a * c < b * c
    ensures a < b
  {
  }

  // ------------------------------------------------ presentation rules

  /** `balance >= 0 ? '+' : ''`, shown before an amount. */
  function SignPrefix(v: int): (p: string)
    ensures p == "+" <==> v >= 0
    ensures p == "" <==> v < 0
  {
    if v >= 0 then "+" else ""
  }

  /** The shown amount carries exactly one sign: `+` when not negative, the minus of the number otherwise. */
  lemma ShownAmountSigned(v: int)
    ensures var shown := SignPrefix(v) + IntToDecimal(v);
      (shown[0] == '+' <==> v >= 0) && (shown[0] == '-' <==> v < 0)
      && forall i :: 1 <= i < |shown| ==> IsDigit(shown[i])
  {
    if v >= 0 {
      assert IntToDecimal(v) == NatToDecimal(v);
    } else {
      assert IntToDecimal(v) == "-" + NatToDecimal(-v);
    }
  }

  datatype BadgeVariant = Default | Secondary

  /** The attendance badge: `default` from 90 percent on, `secondary` below. */
  function Badge(attendance: int): (b: BadgeVariant)
    ensures b == Default <==> attendance >= 90
  {
    if attendance >= 90 then Default else Secondary
  }

  // ------------------------------------------------ initials

  /** `s.split(' ')`: the pieces between single spaces, empty ones included. */
  function Split(s: string): (r: seq<string>)
    ensures 1 <= |r| <= |s| + 1
    ensures forall i :: 0 <= i < |r| ==> NoSpace(r[i])
  {
    if s == [] then [[]]
    else if s[0] == ' ' then [[]] + Split(s[1..])
    else
      var rest := Split(s[1..]);
      [[s[0]] + rest[0]] + rest[1..]
  }

  /** `words.join(' ')`. */
  function Join(words: seq<string>): string
    requires |words| >= 1
  {
    if |words| == 1 then words[0] else words[0] + " " + Join(words[1..])
  }

  /** Splitting loses nothing: joining the pieces gives the name back. */
  lemma {:induction false} JoinSplit(s: string)
    ensures Join(Split(s)) == s
  {
    if s != [] {
      JoinSplit(s[1..]);
      var rest := Split(s[1..]);
      if s[0] != ' ' {
        if |rest| > 1 {
          assert Join(rest) == rest[0] + " " + Join(rest[1..]);
          assert ([[s[0]] + rest[0]] + rest[1..])[1..] == rest[1..];
        }
      }
    }
  }

  predicate NoSpace(w: string) {
    forall j :: 0 <= j < |w| ==> w[j] != ' '
  }

  /** A space-free word in front extends the first piece. */
  lemma {:induction false} SplitWordPrefix(w: string, t: string)
    requires NoSpace(w)
    ensures Split(w + t) == [w + Split(t)[0]] + Split(t)[1..]
  {
    if w != [] {
      assert (w + t)[0] == w[0] != ' ';
      assert (w + t)[1..] == w[1..] + t;
      assert NoSpace(w[1..]) by {
        assert forall j :: 0 <= j < |w[1..]| ==> w[1..][j] == w[j + 1];
      }
      SplitWordPrefix(w[1..], t);
      var rest := Split(w[1..] + t);
      assert rest[0] == w[1..] + Split(t)[0] && rest[1..] == Split(t)[1..];
      assert [w[0]] + (w[1..] + Split(t)[0]) == w + Split(t)[0];
    } else {
      assert [] + t == t && [] + Split(t)[0] == Split(t)[0];
      assert [Split(t)[0]] + Split(t)[1..] == Split(t);
    }
  }

  /** Words without spaces are what splitting their join gives back. */
  lemma {:induction false} SplitJoin(words: seq<string>)
    requires |words| >= 1
    requires forall i :: 0 <= i < |words| ==> NoSpace(words[i])
    ensures Split(Join(words)) == words
  {
    if |words| == 1 {
      SplitWordPrefix(words[0], []);
      assert words[0] + [] == words[0];
    } else {
      var t := Join(words[1..]);
      assert forall i :: 0 <= i < |words[1..]| ==> words[1..][i] == words[i + 1];
      SplitJoin(words[1..]);
      assert (" " + t)[0] == ' ' && (" " + t)[1..] == t;
      assert Split(" " + t) == [[]] + words[1..];
      SplitWordPrefix(words[0], " " + t);
      assert Join(words) == words[0] + (" " + t);
      assert words[0] + [] == words[0];
      assert words == [words[0]] + words[1..];
    }
  }

  /**
   * `pieces.map(n => n[0]).join('')`: the first character of each piece; an
   * empty piece gives `undefined`, which `join` prints as nothing.
   */
  function FirstChars(pieces: seq<string>): (r: string)
    ensures |r| <= |pieces|
    ensures (forall k :: 0 <= k < |pieces| ==> NoSpace(pieces[k])) ==> NoSpace(r)
  {
    if pieces == [] then []
    else
      assert forall k :: 0 <= k < |pieces[1..]| ==> pieces[1..][k] == pieces[k + 1];
      (if pieces[0] == [] then [] else [pieces[0][0]]) + FirstChars(pieces[1..])
  }

  /** The avatar's initials of a name. */
  function Initials(name: string): (r: string)
    ensures |r| <= |name| + 1
    ensures NoSpace(r)
  {
    FirstChars(Split(name))
  }

  /** For a name of space-separated non-empty words, the initials are the words' first letters. */
  lemma InitialsOfWords(words: seq<string>)
    requires |words| >= 1
    requires forall i :: 0 <= i < |words| ==> words[i] != [] && NoSpace(words[i])
    ensures |Initials(Join(words))| == |words|
    ensures forall i :: 0 <= i < |words| ==> Initials(Join(words))[i] == words[i][0]
  {
    SplitJoin(words);
    FirstCharsOfWords(words);
  }

  lemma {:induction false} FirstCharsOfWords(words: seq<string>)
    requires forall i :: 0 <= i < |words| ==> words[i] != []
    ensures |FirstChars(words)| == |words|
    ensures forall i :: 0 <= i < |words| ==> FirstChars(words)[i] == words[i][0]
  {
    if words != [] {
      FirstCharsOfWords(words[1..]);
    }
  }

  // ------------------------------------------------ schedule

  const Days := ["ПН", "ВТ", "СР", "ЧТ", "ПТ", "СБ", "ВС"]

  datatype Slot = Slot(time: string, title: string)

  /** The slots shown under day `idx` of the week: even weekdays two, odd ones one, Sunday none. */
  function Slots(idx: nat): (r: seq<Slot>)
    requires idx < |Days|
    ensures idx % 2 == 0 && idx < 6 ==> r == [Slot("16:00", "7-9 лет"), Slot("17:00", "Начинающие")]
    ensures idx % 2 == 1 && idx < 6 ==> r == [Slot("18:00", "Юниоры")]
    ensures idx == 6 ==> r == []
  {
    (if idx % 2 == 0 && idx < 6 then [Slot("16:00", "7-9 лет"), Slot("17:00", "Начинающие")] else [])
    + (if idx % 2 == 1 && idx < 6 then [Slot("18:00", "Юниоры")] else [])
  }

  /** Day cards from index 5 on (Saturday and Sunday) are drawn muted. */
  predicate Muted(idx: nat) {
    idx >= 5
  }

  /** Monday, Wednesday and Friday hold the 16:00 and 17:00 sessions, Tuesday, Thursday and Saturday the 18:00 one, and Sunday nothing; only the weekend is muted. */
  lemma WeekLayout()
    ensures Slots(0) == Slots(2) == Slots(4) == [Slot("16:00", "7-9 лет"), Slot("17:00", "Начинающие")]
    ensures Slots(1) == Slots(3) == Slots(5) == [Slot("18:00", "Юниоры")]
    ensures Slots(6) == []
    ensures Days[5] == "СБ" && Days[6] == "ВС"
    ensures forall idx: nat :: idx < |Days| ==> (Muted(idx) <==> idx == 5 || idx == 6)
  {
  }

  // ------------------------------------------------ the page's own figures

  /** The sums over a list of four cards, spelled out. */
  lemma FourCards(s: seq<StudentCard>)
    requires |s| == 4
    ensures TotalBalance(s) == s[0].balance + s[1].balance + s[2].balance + s[3].balance
    ensures Attendance(s) == s[0].attendance + s[1].attendance + s[2].attendance + s[3].attendance
    ensures Owed(s) == Owes(s[0]) + Owes(s[1]) + Owes(s[2]) + Owes(s[3])
  {
    var s3 := s[..3];
    var s2 := s3[..2];
    var s1 := s2[..1];
    assert s1[..0] == [] && s1[0] == s[0] && s2[1] == s[1] && s3[2] == s[2];
    assert TotalBalance(s1) == s[0].balance;
    assert TotalBalance(s2) == TotalBalance(s1) + s[1].balance;
    assert TotalBalance(s3) == TotalBalance(s2) + s[2].balance;
    assert Attendance(s1) == s[0].attendance;
    assert Attendance(s2) == Attendance(s1) + s[1].attendance;
    assert Attendance(s3) == Attendance(s2) + s[2].attendance;
    assert Owed(s1) == Owes(s[0]);
    assert Owed(s2) == Owed(s1) + Owes(s[1]);
    assert Owed(s3) == Owed(s2) + Owes(s[2]);
  }

  function Owes(x: StudentCard): int {
    if x.balance < 0 then -x.balance else 0
  }

  /** The two debtors of the built-in list, in list order. */
  lemma MockDebtors()
    ensures Debtors(MockStudents) == [MockStudents[1], MockStudents[3]]
  {
    var s := MockStudents;
    assert s == [s[0]] + [s[1]] + [s[2]] + [s[3]];
    DebtorsAppend([s[0]] + [s[1]] + [s[2]], [s[3]]);
    DebtorsAppend([s[0]] + [s[1]], [s[2]]);
    DebtorsAppend([s[0]], [s[1]]);
    DebtorsSingle(s[0]);
    DebtorsSingle(s[1]);
    DebtorsSingle(s[2]);
    DebtorsSingle(s[3]);
  }

  /** The summary cards for the built-in list: 900 owed, 900 in total, 88 percent on average. */
  lemma MockFigures()
    ensures TotalDebt(MockStudents) == 900
    ensures TotalBalance(MockStudents) == 900
    ensures AvgAttendance(MockStudents) == Rounded(88)
  {
    FourCards(MockStudents);
    TotalDebtIsOwed(MockStudents);
  }
}

=== FILE: db.dfy ===
/**
 * The club's database: the tables the handlers read and write, kept in memory.
 * Each table is a sequence of rows in insertion order; the `SERIAL` id columns
 * are modelled by one counter per table.
 */
module Db {
  import opened Wrappers
  import opened Decimal

  datatype Role = AdminRole | TrainerRole | StudentRole

  datatype User = User(id: int, login: string, passwordHash: string, role: Role, fullName: string, phone: string)

  datatype Group = Group(id: int, name: string, trainerId: Option<int>, schedule: string, costPerSession: int, isArchived: bool)

  datatype Student = Student(id: int, userId: int, groupId: Option<int>, birthDate: Option<string>, parentContact: string, balance: int)

  /** The unique key of the attendance table: one row per student, group and date. */
  datatype SessionKey = SessionKey(studentId: int, groupId: int, sessionDate: string)

  datatype AttendanceRow = AttendanceRow(studentId: int, groupId: int, sessionDate: string, isPresent: bool, trainerComment: Option<string>, costCharged: int)
  {
    function Key(): SessionKey {
      SessionKey(studentId, groupId, sessionDate)
    }
  }

  datatype TxKind = Payment | Charge | Adjustment

  datatype Transaction = Transaction(id: int, studentId: int, amount: int, kind: TxKind, description: string, createdBy: Option<int>)

  /** The sum of the amounts of the student's transactions. */
  function LedgerSum(txs: seq<Transaction>, studentId: int): int {
    if txs == [] then 0
    else (if txs[0].studentId == studentId then txs[0].amount else 0) + LedgerSum(txs[1..], studentId)
  }

  /** Appending a transaction adds its amount to its own student's sum and to no other. */
  lemma {:induction false} LedgerSumAppend(txs: seq<Transaction>, t: Transaction, studentId: int)
    ensures LedgerSum(txs + [t], studentId) == LedgerSum(txs, studentId) + (if t.studentId == studentId then t.amount else 0)
  {
    if txs != [] {
      assert (txs + [t])[1..] == txs[1..] + [t];
      LedgerSumAppend(txs[1..], t, studentId);
    }
  }

  /** A student none of whose transactions are in `txs` has a zero sum. */
  lemma {:induction false} LedgerSumOfStranger(txs: seq<Transaction>, studentId: int)
    requires forall i :: 0 <= i < |txs| ==> txs[i].studentId != studentId
    ensures LedgerSum(txs, studentId) == 0
  {
    if txs != [] {
      LedgerSumOfStranger(txs[1..], studentId);
    }
  }

  /** The ledger invariant: every student's balance is the sum of that student's transactions. */
  ghost predicate Balanced(students: seq<Student>, txs: seq<Transaction>) {
    forall i :: 0 <= i < |students| ==> students[i].balance == LedgerSum(txs, students[i].id)
  }

  /** `UPDATE students SET balance = balance + delta WHERE id = studentId`. */
  function AdjustBalance(students: seq<Student>, studentId: int, delta: int): (r: seq<Student>)
    ensures |r| == |students|
    ensures forall i :: 0 <= i < |r| ==> r[i] == students[i].(balance := r[i].balance)
    ensures forall i :: 0 <= i < |r| ==> r[i].balance == students[i].balance + (if students[i].id == studentId then delta else 0)
    ensures SameStudents(students, r)
  {
    seq(|students|, i requires 0 <= i < |students| =>
      if students[i].id == studentId then students[i].(balance := students[i].balance + delta) else students[i])
  }

  /**
   * Posting a transaction and moving its student's balance by the same amount
   * keeps the ledger invariant.
   */
  lemma PostingKeepsBalanced(students: seq<Student>, txs: seq<Transaction>, t: Transaction)
    requires Balanced(students, txs)
    ensures Balanced(AdjustBalance(students, t.studentId, t.amount), txs + [t])
  {
    var r := AdjustBalance(students, t.studentId, t.amount);
    forall i | 0 <= i < |r| ensures r[i].balance == LedgerSum(txs + [t], r[i].id) {
      LedgerSumAppend(txs, t, students[i].id);
    }
  }

  /** PostgreSQL's `integer` range. */
  predicate InInt4(i: int) {
    -0x8000_0000 <= i < 0x8000_0000
  }

  /**
   * An id parameter as PostgreSQL reads it into an `integer` column comparison:
   * a decimal literal (surrounding whitespace allowed) within range.
   */
  function ReadId(t: string): (r: Option<int>)
    ensures r.Some? ==> InInt4(r.value) && ParseInteger(t) == r
    ensures r.None? ==> ParseInteger(t).None? || !InInt4(ParseInteger(t).value)
  {
    match ParseInteger(t)
    case Some(i) => if InInt4(i) then Some(i) else None
    case None => None
  }

  /** The database error for an id it cannot read: out of range, or not a number at all. */
  function InvalidIdDetail(t: string): string {
    if ParseInteger(t).Some? then "value \"" + t + "\" is out of range for type integer"
    else "invalid input syntax for type integer: \"" + t + "\""
  }

  predicate HasStudent(students: seq<Student>, id: int) {
    exists i :: 0 <= i < |students| && students[i].id == id
  }

  /** `SELECT ... FROM groups WHERE id = id`: the first group with that id. */
  function FindGroup(groups: seq<Group>, id: int): (r: Option<Group>)
    ensures r.Some? ==> r.value in groups && r.value.id == id
    ensures r.None? ==> forall i :: 0 <= i < |groups| ==> groups[i].id != id
  {
    if groups == [] then None
    else if groups[0].id == id then Some(groups[0])
    else FindGroup(groups[1..], id)
  }

  /** The first user with that id (the handlers' joins on `users.id`). */
  function FindUser(users: seq<User>, id: int): (r: Option<User>)
    ensures r.Some? ==> r.value in users && r.value.id == id
    ensures r.None? ==> forall i :: 0 <= i < |users| ==> users[i].id != id
  {
    if users == [] then None
    else if users[0].id == id then Some(users[0])
    else FindUser(users[1..], id)
  }

  /** The index of the first student with that id. */
  function FindStudent(students: seq<Student>, id: int): (r: Option<nat>)
    ensures r.Some? ==> r.value < |students| && students[r.value].id == id
    ensures r.None? ==> !HasStudent(students, id)
  {
    if students == [] then None
    else if students[0].id == id then Some(0)
    else match FindStudent(students[1..], id)
      case None => None
      case Some(j) => Some(j + 1)
  }

  /** The balance of the student with that id. */
  function BalanceOf(students: seq<Student>, id: int): int
    requires HasStudent(students, id)
  {
    students[FindStudent(students, id).value].balance
  }

  /** Some student of the table has id `x` and belongs to the group. */
  predicate InGroup(students: seq<Student>, groupId: int, x: int) {
    exists i :: 0 <= i < |students| && students[i].id == x && students[i].groupId == Some(groupId)
  }

  /** `SELECT id FROM students WHERE group_id = groupId`, in table order. */
  function Members(students: seq<Student>, groupId: int): (r: seq<int>)
    ensures |r| <= |students|
    ensures forall x :: x in r <==> InGroup(students, groupId, x)
  {
    if students == [] then []
    else
      var rest := Members(students[1..], groupId);
      assert forall x :: InGroup(students[1..], groupId, x) ==> InGroup(students, groupId, x) by {
        forall x | InGroup(students[1..], groupId, x) ensures InGroup(students, groupId, x) {
          var i :| 0 <= i < |students[1..]| && students[1..][i].id == x && students[1..][i].groupId == Some(groupId);
          assert students[i + 1] == students[1..][i];
        }
      }
      assert forall x :: InGroup(students, groupId, x) && x != students[0].id ==> InGroup(students[1..], groupId, x) by {
        forall x | InGroup(students, groupId, x) && x != students[0].id ensures InGroup(students[1..], groupId, x) {
          var i :| 0 <= i < |students| && students[i].id == x && students[i].groupId == Some(groupId);
          assert students[1..][i - 1] == students[i];
        }
      }
      (if students[0].groupId == Some(groupId) then [students[0].id] else []) + rest
  }

  predicate NoDuplicates(xs: seq<int>) {
    forall i, j :: 0 <= i < j < |xs| ==> xs[i] != xs[j]
  }

  ghost predicate UniqueStudentIds(students: seq<Student>) {
    forall i, j :: 0 <= i < j < |students| ==> students[i].id != students[j].id
  }

  /** With unique student ids, a group's member list names each member once. */
  lemma {:induction false} MembersNoDuplicates(students: seq<Student>, groupId: int)
    requires UniqueStudentIds(students)
    ensures NoDuplicates(Members(students, groupId))
  {
    if students != [] {
      var rest := Members(students[1..], groupId);
      MembersNoDuplicates(students[1..], groupId);
      assert UniqueStudentIds(students[1..]);
      forall k | 0 <= k < |rest| ensures rest[k] != students[0].id {
        assert rest[k] in rest;
        var i :| 0 <= i < |students[1..]| && students[1..][i].id == rest[k] && students[1..][i].groupId == Some(groupId);
        assert students[i + 1].id == rest[k];
      }
    }
  }

  /** With unique student ids, a student is listed as a member exactly when its group is that group. */
  lemma MemberIffInGroup(students: seq<Student>, groupId: int, i: int)
    requires UniqueStudentIds(students) && 0 <= i < |students|
    ensures students[i].id in Members(students, groupId) <==> students[i].groupId == Some(groupId)
  {
    if students[i].id in Members(students, groupId) {
      var j :| 0 <= j < |students| && students[j].id == students[i].id && students[j].groupId == Some(groupId);
      assert i == j;
    } else {
      assert !InGroup(students, groupId, students[i].id);
    }
  }

  ghost predicate UniqueSessions(rows: seq<AttendanceRow>) {
    forall i, j :: 0 <= i < j < |rows| ==> rows[i].Key() != rows[j].Key()
  }

  /** Ids in `SERIAL` columns: all below the next value and pairwise distinct. */
  ghost predicate UserIdsIssued(users: seq<User>, next: int) {
    && (forall i :: 0 <= i < |users| ==> users[i].id < next)
    && (forall i, j :: 0 <= i < j < |users| ==> users[i].id != users[j].id)
  }

  /** Group ids also grow along the table: it is in order of creation. */
  ghost predicate GroupIdsIssued(groups: seq<Group>, next: int) {
    && (forall i :: 0 <= i < |groups| ==> groups[i].id < next)
    && (forall i, j :: 0 <= i < j < |groups| ==> groups[i].id < groups[j].id)
  }

  ghost predicate StudentIdsIssued(students: seq<Student>, next: int) {
    && (forall i :: 0 <= i < |students| ==> students[i].id < next)
    && UniqueStudentIds(students)
  }

  /** Transaction ids also grow along the table: it is in order of creation. */
  ghost predicate TransactionIdsIssued(txs: seq<Transaction>, next: int) {
    && (forall i :: 0 <= i < |txs| ==> txs[i].id < next)
    && (forall i, j :: 0 <= i < j < |txs| ==> txs[i].id < txs[j].id)
  }

  /** Every student's account is in the users table. */
  ghost predicate StudentsHaveUsers(students: seq<Student>, users: seq<User>) {
    forall i :: 0 <= i < |students| ==> FindUser(users, students[i].userId).Some?
  }

  /** Every attendance row names a student and a group that exist. */
  ghost predicate RowsReferTo(rows: seq<AttendanceRow>, students: seq<Student>, groups: seq<Group>) {
    && (forall i :: 0 <= i < |rows| ==> HasStudent(students, rows[i].studentId))
    && (forall i :: 0 <= i < |rows| ==> FindGroup(groups, rows[i].groupId).Some?)
  }

  /** Every transaction names a student that exists. */
  ghost predicate TxsReferTo(txs: seq<Transaction>, students: seq<Student>) {
    forall i :: 0 <= i < |txs| ==> HasStudent(students, txs[i].studentId)
  }

  /** A transaction numbered by the counter, for a student that exists, keeps the transactions' constraints. */
  lemma PostKeepsReferences(txs: seq<Transaction>, next: int, t: Transaction, students: seq<Student>)
    requires TransactionIdsIssued(txs, next) && TxsReferTo(txs, students)
    requires t.id == next && HasStudent(students, t.studentId)
    ensures TransactionIdsIssued(txs + [t], next + 1) && TxsReferTo(txs + [t], students)
  {
  }

  /** The same students in the same order, balances aside. */
  ghost predicate SameStudents(a: seq<Student>, b: seq<Student>) {
    && |a| == |b|
    && forall i :: 0 <= i < |a| ==> a[i].(balance := 0) == b[i].(balance := 0)
  }

  /** Balance updates break no constraint on the students table or on the rows that refer to it. */
  lemma SameStudentsKeepReferences(a: seq<Student>, b: seq<Student>, users: seq<User>, groups: seq<Group>,
                                   rows: seq<AttendanceRow>, txs: seq<Transaction>, next: int)
    requires SameStudents(a, b)
    ensures StudentIdsIssued(a, next) ==> StudentIdsIssued(b, next)
    ensures StudentsHaveUsers(a, users) ==> StudentsHaveUsers(b, users)
    ensures RowsReferTo(rows, a, groups) ==> RowsReferTo(rows, b, groups)
    ensures TxsReferTo(txs, a) ==> TxsReferTo(txs, b)
  {
    assert forall i :: 0 <= i < |a| ==> a[i].id == b[i].id && a[i].userId == b[i].userId by {
      forall i | 0 <= i < |a| ensures a[i].id == b[i].id && a[i].userId == b[i].userId {
        assert a[i].(balance := 0).id == b[i].(balance := 0).id;
      }
    }
    forall x | HasStudent(a, x) ensures HasStudent(b, x) {
      var i :| 0 <= i < |a| && a[i].id == x;
      assert b[i].id == x;
    }
  }

  /** The contents of every table, and the next value of every id sequence. */
  datatype Tables = Tables(
    groups: seq<Group>,
    users: seq<User>,
    students: seq<Student>,
    attendance: seq<AttendanceRow>,
    transactions: seq<Transaction>,
    nextGroupId: int,
    nextUserId: int,
    nextStudentId: int,
    nextTransactionId: int)

  /**
   * The constraints the schema and the handlers keep: unique ids, one attendance
   * row per session key, and every student, attendance row and transaction
   * referring to rows that exist.
   */
  ghost predicate ValidTables(t: Tables) {
    && GroupIdsIssued(t.groups, t.nextGroupId)
    && UserIdsIssued(t.users, t.nextUserId)
    && StudentIdsIssued(t.students, t.nextStudentId)
    && TransactionIdsIssued(t.transactions, t.nextTransactionId)
    && UniqueSessions(t.attendance)
    && StudentsHaveUsers(t.students, t.users)
    && RowsReferTo(t.attendance, t.students, t.groups)
    && TxsReferTo(t.transactions, t.students)
  }

  /** The ledger invariant over all tables. */
  ghost predicate LedgerOf(t: Tables) {
    Balanced(t.students, t.transactions)
  }

  /**
   * `t` posted under the next transaction id, with its student's balance moved
   * by its amount (the shared step of a payment and of a visit's charge).
   */
  function Posted(db: Tables, t: Transaction): (r: Tables)
    requires t.id == db.nextTransactionId
    ensures r.transactions == db.transactions + [t] && r.nextTransactionId == db.nextTransactionId + 1
    ensures SameStudents(db.students, r.students)
    ensures forall i :: 0 <= i < |r.students| ==>
      r.students[i].balance == db.students[i].balance + (if db.students[i].id == t.studentId then t.amount else 0)
    ensures r.(students := db.students, transactions := db.transactions, nextTransactionId := db.nextTransactionId) == db
  {
    db.(students := AdjustBalance(db.students, t.studentId, t.amount),
        transactions := db.transactions + [t],
        nextTransactionId := db.nextTransactionId + 1)
  }

  /** Lookups by id do not see balances. */
  lemma {:induction false} SameStudentsFind(a: seq<Student>, b: seq<Student>, id: int)
    requires SameStudents(a, b)
    ensures FindStudent(a, id) == FindStudent(b, id)
  {
    if a != [] {
      assert a[0].(balance := 0).id == b[0].(balance := 0).id;
      assert SameStudents(a[1..], b[1..]) by {
        forall i | 0 <= i < |a[1..]| ensures a[1..][i].(balance := 0) == b[1..][i].(balance := 0) {
          assert a[1..][i] == a[i + 1] && b[1..][i] == b[i + 1];
        }
      }
      SameStudentsFind(a[1..], b[1..], id);
    }
  }

  /** After posting, the student's balance is the old one plus the amount. */
  lemma PostedBalance(db: Tables, t: Transaction)
    requires t.id == db.nextTransactionId && HasStudent(db.students, t.studentId)
    ensures HasStudent(Posted(db, t).students, t.studentId)
    ensures BalanceOf(Posted(db, t).students, t.studentId) == BalanceOf(db.students, t.studentId) + t.amount
  {
    var r := Posted(db, t);
    SameStudentsFind(db.students, r.students, t.studentId);
    var i := FindStudent(db.students, t.studentId).value;
    assert r.students[i].id == t.studentId by {
      assert db.students[i].(balance := 0) == r.students[i].(balance := 0);
    }
  }

  /** Posting for an existing student keeps the constraints and the ledger invariant. */
  lemma PostingKeepsInvariants(db: Tables, t: Transaction)
    requires t.id == db.nextTransactionId && HasStudent(db.students, t.studentId)
    ensures ValidTables(db) ==> ValidTables(Posted(db, t))
    ensures LedgerOf(db) ==> LedgerOf(Posted(db, t))
  {
    var r := Posted(db, t);
    if ValidTables(db) {
      PostKeepsReferences(db.transactions, db.nextTransactionId, t, db.students);
      SameStudentsKeepReferences(db.students, r.students, db.users, db.groups, db.attendance, r.transactions, db.nextStudentId);
    }
    if LedgerOf(db) {
      PostingKeepsBalanced(db.students, db.transactions, t);
    }
  }

  /**
   * A failed `INSERT` has still drawn the next value of its id sequence, and
   * PostgreSQL does not give sequence values back on rollback: the id is skipped.
   */
  lemma IdDrawKeepsInvariants(db: Tables)
    ensures ValidTables(db) ==> ValidTables(db.(nextTransactionId := db.nextTransactionId + 1))
    ensures ValidTables(db) ==> ValidTables(db.(nextGroupId := db.nextGroupId + 1))
    ensures LedgerOf(db) ==> LedgerOf(db.(nextTransactionId := db.nextTransactionId + 1))
    ensures LedgerOf(db) ==> LedgerOf(db.(nextGroupId := db.nextGroupId + 1))
  {
  }

  /** The tables of the club's PostgreSQL database. */
  class Database {
    var groups: seq<Group>
    var users: seq<User>
    var students: seq<Student>
    var attendance: seq<AttendanceRow>
    var transactions: seq<Transaction>
    var nextGroupId: int
    var nextUserId: int
    var nextStudentId: int
    var nextTransactionId: int

    /** The current contents of the database. */
    function Snapshot(): Tables
      reads this
    {
      Tables(groups, users, students, attendance, transactions, nextGroupId, nextUserId, nextStudentId, nextTransactionId)
    }

    /** The database constraints over the current tables. */
    ghost predicate Valid()
      reads this
    {
      ValidTables(Snapshot())
    }

    /** The ledger invariant over the current tables. */
    ghost predicate LedgerBalanced()
      reads this
    {
      LedgerOf(Snapshot())
    }

    /** `INSERT INTO transactions` under the next id, then `UPDATE students SET balance = balance + amount`. */
    method Post(t: Transaction)
      requires t.id == nextTransactionId
      modifies this
      ensures Snapshot() == Posted(old(Snapshot()), t)
    {
      transactions := transactions + [t];
      nextTransactionId := nextTransactionId + 1;
      students := AdjustBalance(students, t.studentId, t.amount);
    }

    /** The transaction id sequence advanced by an `INSERT` that then failed. */
    method DrawTransactionId()
      modifies this
      ensures Snapshot() == old(Snapshot()).(nextTransactionId := old(nextTransactionId) + 1)
    {
      nextTransactionId := nextTransactionId + 1;
    }

    /** The group id sequence advanced by an `INSERT` that then failed. */
    method DrawGroupId()
      modifies this
      ensures Snapshot() == old(Snapshot()).(nextGroupId := old(nextGroupId) + 1)
    {
      nextGroupId := nextGroupId + 1;
    }

    constructor ()
      ensures Valid() && LedgerBalanced()
      ensures Snapshot() == Tables([], [], [], [], [], 1, 1, 1, 1)
    {
      groups, users, students, attendance, transactions := [], [], [], [], [];
      nextGroupId, nextUserId, nextStudentId, nextTransactionId := 1, 1, 1, 1;
    }
  }
}

=== FILE: decimal.dfy ===
/**
 * Decimal integers: printing (JavaScript template literals, Python f-strings) and
 * parsing (Python `int(str)`, PostgreSQL integer input).
 */
module Decimal {
  import opened Wrappers
  import opened Text

  predicate IsDigit(c: char) {
    '0' <= c <= '9'
  }

  predicate AllDigits(s: string) {
    forall i :: 0 <= i < |s| ==> IsDigit(s[i])
  }

  function DigitChar(d: nat): (c: char)
    requires d < 10
    ensures IsDigit(c) && (c as int) - ('0' as int) == d
  {
    (('0' as int) + d) as char
  }

  /** The decimal digits of `n`, most significant first, without leading zeros. */
  function NatToDecimal(n: nat): (r: string)
    ensures |r| >= 1 && AllDigits(r)
    ensures r[0] == '0' ==> n == 0
  {
    if n < 10 then [DigitChar(n)] else NatToDecimal(n / 10) + [DigitChar(n % 10)]
  }

  /** The number a string of decimal digits denotes. */
  function DigitsValue(s: string): nat
    requires AllDigits(s)
  {
    if s == [] then 0 else DigitsValue(s[..|s| - 1]) * 10 + ((s[|s| - 1] as int) - ('0' as int))
  }

  /** Printing a natural number in decimal and reading it back gives the number. */
  lemma {:induction false} NatToDecimalRoundTrip(n: nat)
    ensures DigitsValue(NatToDecimal(n)) == n
  {
    if n >= 10 {
      NatToDecimalRoundTrip(n / 10);
      var r := NatToDecimal(n);
      assert r[..|r| - 1] == NatToDecimal(n / 10);
    }
  }

  /** How JavaScript and Python print an integer: a minus sign for negatives, then the digits. */
  function IntToDecimal(i: int): (r: string)
    ensures |r| >= 1
    ensures r[0] == '-' <==> i < 0
    ensures IsDigit(r[|r| - 1])
  {
    if i < 0 then "-" + NatToDecimal(-i) else NatToDecimal(i)
  }

  /** An optional sign followed by at least one decimal digit, and nothing else. */
  function ParseSigned(t: string): Option<int> {
    if |t| > 1 && (t[0] == '-' || t[0] == '+') && AllDigits(t[1..]) then
      var v: int := DigitsValue(t[1..]);
      Some(if t[0] == '-' then -v else v)
    else if |t| > 0 && AllDigits(t) then
      Some(DigitsValue(t))
    else
      None
  }

  /**
   * The common core of Python's `int(str)` and PostgreSQL's integer input:
   * optional surrounding whitespace (as `Text.IsSpace` defines it), an optional
   * sign, at least one ASCII decimal digit. Both readers accept more than this
   * (underscores between digits; non-ASCII digits in Python; hexadecimal,
   * octal and binary prefixes in newer PostgreSQL), and PostgreSQL trims fewer
   * kinds of whitespace than Python does.
   */
  function ParseInteger(s: string): Option<int> {
    ParseSigned(Strip(s))
  }

  /** A printed integer has no surrounding whitespace to strip. */
  lemma DecimalUntrimmed(i: int)
    ensures Strip(IntToDecimal(i)) == IntToDecimal(i)
  {
    var d := IntToDecimal(i);
    assert !IsSpace(d[0]) && !IsSpace(d[|d| - 1]);
    StripUntrimmed(d);
  }

  lemma ParseSignedRoundTrip(i: int)
    ensures ParseSigned(IntToDecimal(i)) == Some(i)
  {
    if i < 0 {
      var n := NatToDecimal(-i);
      NatToDecimalRoundTrip(-i);
      assert ("-" + n)[1..] == n;
    } else {
      NatToDecimalRoundTrip(i);
      assert IsDigit(NatToDecimal(i)[0]);
    }
  }

  /** What an integer prints as, it parses back to. */
  lemma ParseIntegerRoundTrip(i: int)
    ensures ParseInteger(IntToDecimal(i)) == Some(i)
  {
    DecimalUntrimmed(i);
    ParseSignedRoundTrip(i);
  }
}

=== FILE: groups.dfy ===
/**
 * The groups handler: listing the groups that are not archived, with their
 * trainer's name and number of students (GET), and creating a group (POST).
 */
module Groups {
  import opened Wrappers
  import opened Text
  import opened Seqs
  import opened Http
  import opened Db
  import Students

  const DefaultCost := 300
  const MissingNameMessage := "Название группы обязательно"

  // ------------------------------------------------ POST

  /**
   * The POST body; an absent `name` or `schedule` reads as `""`, an absent
   * `cost_per_session` as 300, while an explicit `null` cost is passed on as `NULL`.
   */
  datatype GroupRequest = GroupRequest(name: Field<string>, trainerId: Option<int>, schedule: Field<string>, costPerSession: Field<int>)

  /** A request that passed the checks: what goes into the new row. */
  datatype Founding = Founding(name: string, trainerId: Option<int>, schedule: string, costPerSession: int)

  /** The columns `RETURNING` hands back: the new row without its archive flag. */
  datatype GroupRecord = GroupRecord(id: int, name: string, trainerId: Option<int>, schedule: string, costPerSession: int)

  /**
   * The outcome of the checks: refused before anything is written, aborted by
   * the `INSERT` itself after it drew a group id, or accepted.
   */
  datatype Proposal = Declined(reply: Reply<GroupRecord>) | Aborted(reply: Reply<GroupRecord>) | Accepted(founding: Founding)

  /** The database's refusal of a `NULL` in the `NOT NULL` column `cost_per_session`. */
  const NullCostDetail := "null value in column \"cost_per_session\" of relation \"groups\" violates not-null constraint"

  /** `body.get('cost_per_session', 300)`: the default only when the key is absent. */
  function CostField(f: Field<int>): Option<int> {
    match f
    case Absent => Some(DefaultCost)
    case Null => None
    case Present(c) => Some(c)
  }

  /** The checks of the POST branch, in the handler's order; nothing is written before they pass. */
  function AdmitGroup(body: Parsed<GroupRequest>): (p: Proposal)
    ensures body.Malformed? ==> p == Declined(ServerError(body.detail))
    ensures body.Parsed? && (body.value.name.Null? || body.value.schedule.Null?) ==>
      p == Declined(ServerError(NullTextDetail))
    ensures p.Declined? && body.Parsed? && StripField(body.value.name).Some? && StripField(body.value.schedule).Some?
      ==> p == Declined(Err(400, MissingNameMessage))
    ensures !p.Declined? <==>
      body.Parsed? && StripField(body.value.name).Some? && StripField(body.value.schedule).Some?
      && StripField(body.value.name).value != ""
    ensures p.Aborted? <==> !p.Declined? && body.value.costPerSession.Null?
    ensures p.Aborted? ==> p.reply == ServerError(NullCostDetail)
    ensures p.Accepted? ==>
      && p.founding.name == StripField(body.value.name).value
      && p.founding.schedule == StripField(body.value.schedule).value
      && p.founding.trainerId == body.value.trainerId
      && Some(p.founding.costPerSession) == CostField(body.value.costPerSession)
  {
    match body
    case Malformed(detail) => Declined(ServerError(detail))
    case Parsed(req) =>
      match (StripField(req.name), StripField(req.schedule))
      case (Some(name), Some(schedule)) =>
        if name == "" then Declined(Err(400, MissingNameMessage))
        else
          (match CostField(req.costPerSession)
           case None => Aborted(ServerError(NullCostDetail))
           case Some(cost) => Accepted(Founding(name, req.trainerId, schedule, cost)))
      case _ => Declined(ServerError(NullTextDetail))
  }

  /**
   * A present cost is stored as given and an absent one as 300, names and
   * schedules stripped; a `null` cost makes the insert fail.
   */
  lemma FoundingDefaults(req: GroupRequest, name: string, schedule: string)
    requires req.name == Present(name) && req.schedule == Present(schedule)
    requires !AllSpace(name)
    ensures req.costPerSession.Null? ==> AdmitGroup(Parsed(req)) == Aborted(ServerError(NullCostDetail))
    ensures !req.costPerSession.Null? ==> AdmitGroup(Parsed(req)).Accepted?
    ensures var p := AdmitGroup(Parsed(req));
      p.Accepted? ==>
      && p.founding.name == Strip(name) && p.founding.schedule == Strip(schedule)
      && (req.costPerSession.Absent? ==> p.founding.costPerSession == DefaultCost)
      && (req.costPerSession.Present? ==> p.founding.costPerSession == req.costPerSession.value)
  {
    StripEmptyIffAllSpace(name);
  }

  /** The insert: a row under the next group id, not archived. */
  function Founded(db: Tables, f: Founding): (r: Tables)
    ensures r.groups == db.groups + [Group(db.nextGroupId, f.name, f.trainerId, f.schedule, f.costPerSession, false)]
    ensures r.(groups := db.groups, nextGroupId := db.nextGroupId) == db
  {
    db.(groups := db.groups + [Group(db.nextGroupId, f.name, f.trainerId, f.schedule, f.costPerSession, false)],
        nextGroupId := db.nextGroupId + 1)
  }

  /** Appending a group leaves every earlier lookup as it was. */
  lemma {:induction false} FindGroupAppend(groups: seq<Group>, g: Group, id: int)
    ensures FindGroup(groups, id).Some? ==> FindGroup(groups + [g], id) == FindGroup(groups, id)
    ensures FindGroup(groups, id).None? && g.id == id ==> FindGroup(groups + [g], id) == Some(g)
  {
    if groups != [] {
      assert (groups + [g])[1..] == groups[1..] + [g];
      FindGroupAppend(groups[1..], g, id);
    }
  }

  /** Creating a group keeps the constraints; the ledger is not touched. */
  lemma FoundingKeepsInvariants(db: Tables, f: Founding)
    ensures ValidTables(db) ==> ValidTables(Founded(db, f))
    ensures LedgerOf(db) ==> LedgerOf(Founded(db, f))
  {
    var r := Founded(db, f);
    if ValidTables(db) {
      forall i | 0 <= i < |db.attendance| ensures FindGroup(r.groups, db.attendance[i].groupId).Some? {
        FindGroupAppend(db.groups, r.groups[|db.groups|], db.attendance[i].groupId);
      }
    }
  }

  /** `INSERT INTO groups ... RETURNING ...`. */
  method Insert(db: Database, f: Founding) returns (record: GroupRecord)
    modifies db
    ensures db.Snapshot() == Founded(old(db.Snapshot()), f)
    ensures record == GroupRecord(old(db.nextGroupId), f.name, f.trainerId, f.schedule, f.costPerSession)
  {
    record := GroupRecord(db.nextGroupId, f.name, f.trainerId, f.schedule, f.costPerSession);
    db.groups := db.groups + [Group(db.nextGroupId, f.name, f.trainerId, f.schedule, f.costPerSession, false)];
    db.nextGroupId := db.nextGroupId + 1;
  }

  /**
   * The POST branch: 201 with the stored row; a refusal with no table changed;
   * or the failed insert, which leaves only its group id used up.
   */
  method Create(db: Database, body: Parsed<GroupRequest>) returns (reply: Reply<GroupRecord>)
    requires db.Valid()
    modifies db
    ensures db.Valid()
    ensures old(db.LedgerBalanced()) ==> db.LedgerBalanced()
    ensures match AdmitGroup(body)
      case Declined(r) => reply == r && db.Snapshot() == old(db.Snapshot())
      case Aborted(r) => reply == r && db.Snapshot() == old(db.Snapshot()).(nextGroupId := old(db.nextGroupId) + 1)
      case Accepted(f) =>
        && db.Snapshot() == Founded(old(db.Snapshot()), f)
        && reply == Ok(201, GroupRecord(old(db.nextGroupId), f.name, f.trainerId, f.schedule, f.costPerSession))
  {
    var p := AdmitGroup(body);
    if p.Declined? {
      return p.reply;
    }
    if p.Aborted? {
      IdDrawKeepsInvariants(db.Snapshot());
      db.DrawGroupId();
      return p.reply;
    }
    FoundingKeepsInvariants(db.Snapshot(), p.founding);
    var record := Insert(db, p.founding);
    reply := Ok(201, record);
  }

  // ------------------------------------------------ GET

  /** A listed group: the row, the trainer's name (left join) and the number of its students. */
  datatype GroupView = GroupView(group: Group, trainerName: Option<string>, studentCount: nat)

  /** The `group_id` column of the students table. */
  function GroupColumn(students: seq<Student>): (r: seq<Option<int>>)
    ensures |r| == |students|
    ensures forall i :: 0 <= i < |students| ==> r[i] == students[i].groupId
  {
    if students == [] then [] else [students[0].groupId] + GroupColumn(students[1..])
  }

  /** A group's member list has one entry per student whose `group_id` is the group. */
  lemma {:induction false} MembersCount(students: seq<Student>, groupId: int)
    ensures |Members(students, groupId)| == multiset(GroupColumn(students))[Some(groupId)]
  {
    if students != [] {
      MembersCount(students[1..], groupId);
      assert GroupColumn(students) == [students[0].groupId] + GroupColumn(students[1..]);
    }
  }

  /**
   * `COUNT(s.id)` over the students left-joined on `group_id`: the number of
   * students whose `group_id` is the group.
   */
  function StudentCount(students: seq<Student>, groupId: int): (n: nat)
    ensures n == multiset(GroupColumn(students))[Some(groupId)]
    ensures n <= |students|
    ensures n == 0 <==> forall i :: 0 <= i < |students| ==> students[i].groupId != Some(groupId)
  {
    MembersCount(students, groupId);
    var m := Members(students, groupId);
    if |m| == 0 then
      assert forall i :: 0 <= i < |students| ==> !InGroup(students, groupId, students[i].id);
      0
    else
      assert InGroup(students, groupId, m[0]);
      |m|
  }

  /** The row with its trainer's name and its student count. */
  function ViewOf(g: Group, users: seq<User>, students: seq<Student>): (v: GroupView)
    ensures v.group == g && v.studentCount == StudentCount(students, g.id)
    ensures v.trainerName.Some? <==> g.trainerId.Some? && FindUser(users, g.trainerId.value).Some?
  {
    var trainerName := match g.trainerId
      case None => None
      case Some(t) => (match FindUser(users, t) case None => None case Some(u) => Some(u.fullName));
    GroupView(g, trainerName, StudentCount(students, g.id))
  }

  /** `WHERE g.is_archived = FALSE`, in table order. */
  function ActiveViews(groups: seq<Group>, users: seq<User>, students: seq<Student>): (r: seq<GroupView>)
    ensures forall v :: v in r <==> v.group in groups && !v.group.isArchived && v == ViewOf(v.group, users, students)
  {
    if groups == [] then []
    else
      var rest := ActiveViews(groups[1..], users, students);
      assert forall g :: g in groups <==> g == groups[0] || g in groups[1..];
      (if groups[0].isArchived then [] else [ViewOf(groups[0], users, students)]) + rest
  }

  /** The GET listing: every group not archived, newest first. */
  function GroupListing(groups: seq<Group>, users: seq<User>, students: seq<Student>): (r: seq<GroupView>)
    ensures forall g :: g in groups && !g.isArchived ==> ViewOf(g, users, students) in r
    ensures forall v :: v in r ==> v.group in groups && !v.group.isArchived && v == ViewOf(v.group, users, students)
  {
    var all := ActiveViews(groups, users, students);
    ReverseSameElements(all);
    Reverse(all)
  }

  predicate GroupIdsIncreasing(vs: seq<GroupView>) {
    forall i, j :: 0 <= i < j < |vs| ==> vs[i].group.id < vs[j].group.id
  }

  /** Filtering keeps the table's order. */
  lemma {:induction false} ActiveViewsIncreasing(groups: seq<Group>, users: seq<User>, students: seq<Student>)
    requires forall i, j :: 0 <= i < j < |groups| ==> groups[i].id < groups[j].id
    ensures GroupIdsIncreasing(ActiveViews(groups, users, students))
  {
    if groups != [] {
      var rest := groups[1..];
      ActiveViewsIncreasing(rest, users, students);
      var tail := ActiveViews(rest, users, students);
      forall v | v in tail ensures groups[0].id < v.group.id {
        var k :| 0 <= k < |rest| && rest[k] == v.group;
        assert groups[k + 1] == v.group;
      }
    }
  }

  /** With ids growing in order of creation, the listing is newest first. */
  lemma GroupsNewestFirst(db: Tables)
    requires ValidTables(db)
    ensures var r := GroupListing(db.groups, db.users, db.students);
      forall i, j :: 0 <= i < j < |r| ==> r[i].group.id > r[j].group.id
  {
    ActiveViewsIncreasing(db.groups, db.users, db.students);
  }

  /** Archived groups never appear, whatever else the tables hold. */
  lemma ArchivedHidden(groups: seq<Group>, users: seq<User>, students: seq<Student>, g: Group)
    requires g.isArchived
    ensures forall v :: v in GroupListing(groups, users, students) ==> v.group != g
  {
  }

  /** `Members` grows at the end as the students table does. */
  lemma {:induction false} MembersAppend(students: seq<Student>, st: Student, groupId: int)
    ensures Members(students + [st], groupId) == Members(students, groupId) + (if st.groupId == Some(groupId) then [st.id] else [])
  {
    if students != [] {
      assert (students + [st])[1..] == students[1..] + [st];
      MembersAppend(students[1..], st, groupId);
    }
  }

  /** Enrolling a student into a group raises that group's count by one and leaves every other count as it was. */
  lemma EnrolmentCounts(db: Tables, a: Students.Applicant, login: string, passwordHash: string, groupId: int)
    ensures StudentCount(Students.Enrolled(db, a, login, passwordHash).students, groupId)
      == StudentCount(db.students, groupId) + (if a.groupId == Some(groupId) then 1 else 0)
  {
    var r := Students.Enrolled(db, a, login, passwordHash);
    MembersAppend(db.students, r.students[|db.students|], groupId);
  }

  datatype GroupsPayload = Preflighted | Listed(groups: seq<GroupView>) | Created(group: GroupRecord)

  /** The handler: routing on the HTTP method, then the branch. */
  method Handle(db: Database, httpMethod: Option<string>, body: Parsed<GroupRequest>) returns (reply: Reply<GroupsPayload>)
    requires db.Valid()
    modifies db
    ensures db.Valid()
    ensures old(db.LedgerBalanced()) ==> db.LedgerBalanced()
    ensures RouteOf(httpMethod) != Submit ==> db.Snapshot() == old(db.Snapshot())
    ensures RouteOf(httpMethod) == Preflight ==> reply == Ok(200, Preflighted)
    ensures RouteOf(httpMethod) == NotAllowed ==> reply == Err(405, MethodNotAllowedMessage)
    ensures RouteOf(httpMethod) == Query ==> reply == Ok(200, Listed(GroupListing(db.groups, db.users, db.students)))
    ensures RouteOf(httpMethod) == Submit ==>
      match AdmitGroup(body)
      case Declined(r) => reply == Err(r.status, r.error) && db.Snapshot() == old(db.Snapshot())
      case Aborted(r) =>
        reply == Err(r.status, r.error) && db.Snapshot() == old(db.Snapshot()).(nextGroupId := old(db.nextGroupId) + 1)
      case Accepted(f) =>
        && db.Snapshot() == Founded(old(db.Snapshot()), f)
        && reply == Ok(201, Created(GroupRecord(old(db.nextGroupId), f.name, f.trainerId, f.schedule, f.costPerSession)))
  {
    match RouteOf(httpMethod)
    case Preflight =>
      reply := Ok(200, Preflighted);
    case NotAllowed =>
      reply := Err(405, MethodNotAllowedMessage);
    case Query =>
      reply := Ok(200, Listed(GroupListing(db.groups, db.users, db.students)));
    case Submit =>
      var r := Create(db, body);
      reply := match r
               case Ok(status, record) => Ok(status, Created(record))
               case Err(status, error) => Err(status, error);
  }
}

=== FILE: http.dfy ===
/**
 * What the four backend handlers share: their JSON replies, the routing on the
 * HTTP method, and the catch-all that turns any exception into status 500.
 */
module Http {
  import opened Wrappers
  import opened Text

  /** A handler's reply: a success status with its payload, or an error status with the `error` text. */
  datatype Reply<+T> = Ok(status: int, value: T) | Err(status: int, error: string)

  /** A JSON request body, or the exception its decoding raised (invalid JSON, not an object). */
  datatype Parsed<+T> = Parsed(value: T) | Malformed(detail: string)

  /** A JSON field that may be absent, `null` or a value. */
  datatype Field<+T> = Absent | Null | Present(value: T)

  /** Prefix of every status-500 message. */
  const ServerErrorPrefix := "Ошибка сервера: "
  const MethodNotAllowedMessage := "Method not allowed"

  /** The reply of the handlers' `except Exception as e` clause. */
  function ServerError<T>(detail: string): (r: Reply<T>)
    ensures r.Err? && r.status == 500
    ensures |r.error| >= |ServerErrorPrefix| && r.error[..|ServerErrorPrefix|] == ServerErrorPrefix
  {
    Err(500, ServerErrorPrefix + detail)
  }

  /** Which branch of a handler a request takes. */
  datatype Route = Preflight | Query | Submit | NotAllowed

  /** `event.get('httpMethod', 'GET')`, then OPTIONS, POST, GET or anything else. */
  function RouteOf(httpMethod: Option<string>): (r: Route)
    ensures r == Preflight <==> httpMethod == Some("OPTIONS")
    ensures r == Submit <==> httpMethod == Some("POST")
    ensures r == Query <==> httpMethod == None || httpMethod == Some("GET")
  {
    match httpMethod.GetOr("GET")
    case "OPTIONS" => Preflight
    case "POST" => Submit
    case "GET" => Query
    case _ => NotAllowed
  }

  /** The `AttributeError` of calling `.strip()` on a `null` field. */
  const NullTextDetail := "'NoneType' object has no attribute 'strip'"

  /** `body.get(key, '').strip()`: `""` when absent, an `AttributeError` (`None`) when `null`. */
  function StripField(f: Field<string>): Option<string> {
    match f
    case Absent => Some("")
    case Null => None
    case Present(s) => Some(Strip(s))
  }

  /** Python truthiness of an optional integer field: present and non-zero. */
  predicate IdGiven(x: Option<int>) {
    x.Some? && x.value != 0
  }

  /** Python truthiness of an optional string field: present and non-empty. */
  predicate TextGiven(x: Option<string>) {
    x.Some? && x.value != ""
  }
}

=== FILE: seqs.dfy ===
/**
 * Sequence operations behind the handlers' `ORDER BY ... LIMIT n` queries:
 * a comparator-driven insertion sort, reversal (newest first) and a prefix.
 */
module Seqs {

  /** `le` orders every pair of values one way or the other. */
  ghost predicate Total<T(!new)>(le: (T, T) -> bool) {
    forall a, b :: le(a, b) || le(b, a)
  }

  /** Every element is ordered before its successor. */
  predicate SortedBy<T>(s: seq<T>, le: (T, T) -> bool) {
    forall i :: 0 < i < |s| ==> le(s[i - 1], s[i])
  }

  /** `x` placed before the first element it is ordered before. */
  function Insert<T>(x: T, s: seq<T>, le: (T, T) -> bool): (r: seq<T>)
    ensures multiset(r) == multiset(s) + multiset{x}
  {
    if s == [] || le(x, s[0]) then [x] + s
    else
      assert s == [s[0]] + s[1..];
      [s[0]] + Insert(x, s[1..], le)
  }

  /** Insertion sort of `s` by `le`. */
  function SortBy<T>(s: seq<T>, le: (T, T) -> bool): (r: seq<T>)
    ensures multiset(r) == multiset(s)
  {
    if s == [] then []
    else
      assert s == [s[0]] + s[1..];
      Insert(s[0], SortBy(s[1..], le), le)
  }

  lemma {:induction false} InsertSorted<T(!new)>(x: T, s: seq<T>, le: (T, T) -> bool)
    requires Total(le) && SortedBy(s, le)
    ensures SortedBy(Insert(x, s, le), le)
    ensures |Insert(x, s, le)| == |s| + 1
    ensures s != [] ==> Insert(x, s, le)[0] == x || Insert(x, s, le)[0] == s[0]
  {
    if s == [] || le(x, s[0]) {
    } else {
      var t := s[1..];
      assert SortedBy(t, le) by {
        forall i | 0 < i < |t| ensures le(t[i - 1], t[i]) {
          assert t[i - 1] == s[i] && t[i] == s[i + 1];
        }
      }
      InsertSorted(x, t, le);
      var u := Insert(x, t, le);
      var r := [s[0]] + u;
      assert le(s[0], x);
      forall i | 0 < i < |r| ensures le(r[i - 1], r[i]) {
        if i == 1 {
          if t != [] && u[0] == t[0] {
            assert t[0] == s[1];
          }
        } else {
          assert r[i - 1] == u[i - 2] && r[i] == u[i - 1];
        }
      }
    }
  }

  /** Sorting yields an ordered permutation (the permutation part is SortBy's own contract). */
  lemma {:induction false} SortBySorted<T(!new)>(s: seq<T>, le: (T, T) -> bool)
    requires Total(le)
    ensures SortedBy(SortBy(s, le), le)
    ensures |SortBy(s, le)| == |s|
  {
    if s != [] {
      SortBySorted(s[1..], le);
      InsertSorted(s[0], SortBy(s[1..], le), le);
    }
  }

  ghost predicate Transitive<T(!new)>(le: (T, T) -> bool) {
    forall a, b, c :: le(a, b) && le(b, c) ==> le(a, c)
  }

  /** Under a transitive order, a list ordered pair by pair is ordered throughout. */
  lemma {:induction false} SortedChain<T(!new)>(s: seq<T>, le: (T, T) -> bool, i: nat, j: nat)
    requires Transitive(le) && SortedBy(s, le) && i < j < |s|
    ensures le(s[i], s[j])
    decreases j - i
  {
    if i + 1 < j {
      SortedChain(s, le, i, j - 1);
      assert le(s[j - 1], s[j]);
    }
  }

  /**
   * Cutting an ordered list after `n` elements keeps elements that are ordered
   * before every element it drops.
   */
  lemma TakeKeepsFirst<T(!new)>(s: seq<T>, le: (T, T) -> bool, n: nat)
    requires Transitive(le) && SortedBy(s, le)
    ensures forall v, w :: v in Take(s, n) && w in multiset(s) - multiset(Take(s, n)) ==> le(v, w)
  {
    var r := Take(s, n);
    if |s| >= n {
      assert s == r + s[n..];
      assert multiset(s) == multiset(r) + multiset(s[n..]);
      forall v, w | v in r && w in multiset(s) - multiset(r) ensures le(v, w) {
        assert w in multiset(s[n..]);
        var i :| 0 <= i < |r| && r[i] == v;
        var j :| 0 <= j < |s[n..]| && s[n..][j] == w;
        assert s[i] == v && s[n + j] == w;
        SortedChain(s, le, i, n + j);
      }
    }
  }

  /** The first `n` elements, or all of them when there are fewer (SQL `LIMIT n`). */
  function Take<T>(s: seq<T>, n: nat): (r: seq<T>)
    ensures |r| == if |s| < n then |s| else n
    ensures forall i :: 0 <= i < |r| ==> r[i] == s[i]
  {
    if |s| < n then s else s[..n]
  }

  /** `s` in the opposite order. */
  function Reverse<T>(s: seq<T>): (r: seq<T>)
    ensures |r| == |s|
    ensures forall i :: 0 <= i < |s| ==> r[i] == s[|s| - 1 - i]
  {
    if s == [] then [] else [s[|s| - 1]] + Reverse(s[..|s| - 1])
  }

  /** Reversing keeps the same elements. */
  lemma ReverseSameElements<T>(s: seq<T>)
    ensures forall v :: v in Reverse(s) <==> v in s
  {
    var r := Reverse(s);
    forall v | v in r ensures v in s {
      var i :| 0 <= i < |r| && r[i] == v;
      assert s[|s| - 1 - i] == v;
    }
    forall v | v in s ensures v in r {
      var i :| 0 <= i < |s| && s[i] == v;
      assert r[|s| - 1 - i] == v;
    }
  }
}

=== FILE: students.dfy ===
/**
 * The students handler: listing students with their attendance statistics
 * (GET) and enrolling a student (POST), which creates the student's user
 * account with a generated login and temporary password.
 */
module Students {
  import opened Wrappers
  import opened Text
  import opened Seqs
  import opened Http
  import opened Db

  const LoginPrefix := "sambokid_"
  /** Python's `string.digits`. */
  const DigitAlphabet: string := CharRange('0', 10)
  /** Python's `string.ascii_letters + string.digits`. */
  const PasswordAlphabet: string := CharRange('a', 26) + CharRange('A', 26) + CharRange('0', 10)
  const LoginDigits := 5
  const PasswordLength := 8
  const MissingNameMessage := "ФИО ученика обязательно"
  const CreatedMessage := "Ученик создан. Передайте логин и пароль родителю."

  // ------------------------------------------------ generated credentials

  /** The `n` consecutive code points from `first` on. */
  function CharRange(first: char, n: nat): (r: string)
    requires (first as int) + n <= 0xD800
    ensures |r| == n
    ensures forall i :: 0 <= i < n ==> r[i] as int == (first as int) + i
  {
    seq(n, i requires 0 <= i < n => ((first as int) + i) as char)
  }

  /** The characters `random.choices(alphabet, k=|picks|)` draws when its random indices are `picks`. */
  function Pick(alphabet: string, picks: seq<nat>): (r: string)
    requires forall i :: 0 <= i < |picks| ==> picks[i] < |alphabet|
    ensures |r| == |picks|
    ensures forall i :: 0 <= i < |r| ==> r[i] == alphabet[picks[i]]
  {
    if picks == [] then [] else [alphabet[picks[0]]] + Pick(alphabet, picks[1..])
  }

  predicate ValidPicks(picks: seq<nat>, count: nat, size: nat) {
    |picks| == count && forall i :: 0 <= i < |picks| ==> picks[i] < size
  }

  predicate IsAsciiDigit(c: char) {
    '0' <= c <= '9'
  }

  predicate IsAsciiAlnum(c: char) {
    IsAsciiDigit(c) || 'a' <= c <= 'z' || 'A' <= c <= 'Z'
  }

  /** `generate_login`: the prefix and five random decimal digits. */
  function GenerateLogin(picks: seq<nat>): (r: string)
    requires ValidPicks(picks, LoginDigits, |DigitAlphabet|)
    ensures |r| == |LoginPrefix| + LoginDigits
    ensures r[..|LoginPrefix|] == LoginPrefix
    ensures forall i :: |LoginPrefix| <= i < |r| ==> IsAsciiDigit(r[i])
  {
    LoginPrefix + Pick(DigitAlphabet, picks)
  }

  /** The eight-character temporary password, of ASCII letters and digits. */
  function TempPassword(picks: seq<nat>): (r: string)
    requires ValidPicks(picks, PasswordLength, |PasswordAlphabet|)
    ensures |r| == PasswordLength
    ensures forall i :: 0 <= i < |r| ==> IsAsciiAlnum(r[i])
  {
    Pick(PasswordAlphabet, picks)
  }

  /** Different draws give different strings when the alphabet has no repeated character. */
  lemma PickInjective(alphabet: string, p: seq<nat>, q: seq<nat>)
    requires forall i, j :: 0 <= i < j < |alphabet| ==> alphabet[i] != alphabet[j]
    requires forall i :: 0 <= i < |p| ==> p[i] < |alphabet|
    requires forall i :: 0 <= i < |q| ==> q[i] < |alphabet|
    requires Pick(alphabet, p) == Pick(alphabet, q)
    ensures p == q
  {
    forall i | 0 <= i < |p| ensures p[i] == q[i] {
      assert Pick(alphabet, p)[i] == alphabet[p[i]];
      assert Pick(alphabet, q)[i] == alphabet[q[i]];
    }
  }

  /** A login names its five digits: distinct draws give distinct logins. */
  lemma LoginInjective(p: seq<nat>, q: seq<nat>)
    requires ValidPicks(p, LoginDigits, |DigitAlphabet|) && ValidPicks(q, LoginDigits, |DigitAlphabet|)
    requires GenerateLogin(p) == GenerateLogin(q)
    ensures p == q
  {
    assert Pick(DigitAlphabet, p) == GenerateLogin(p)[|LoginPrefix|..];
    assert Pick(DigitAlphabet, q) == GenerateLogin(q)[|LoginPrefix|..];
    PickInjective(DigitAlphabet, p, q);
  }

  // ------------------------------------------------ attendance statistics

  /** `COUNT(*)` of the student's attendance rows. */
  function Sessions(rows: seq<AttendanceRow>, studentId: int): nat {
    if rows == [] then 0
    else (if rows[0].studentId == studentId then 1 else 0) + Sessions(rows[1..], studentId)
  }

  /** `COUNT(*)` of the student's rows marked present. */
  function Visits(rows: seq<AttendanceRow>, studentId: int): nat {
    if rows == [] then 0
    else (if rows[0].studentId == studentId && rows[0].isPresent then 1 else 0) + Visits(rows[1..], studentId)
  }

  lemma {:induction false} VisitsAtMostSessions(rows: seq<AttendanceRow>, studentId: int)
    ensures Visits(rows, studentId) <= Sessions(rows, studentId)
  {
    if rows != [] {
      VisitsAtMostSessions(rows[1..], studentId);
    }
  }

  /** Python's `round` of the exact quotient `n / d`: to the nearest integer, ties to even. */
  function RoundHalfEven(n: nat, d: nat): (r: nat)
    requires d > 0
    ensures 2 * n <= 2 * (r * d) + d && 2 * (r * d) <= 2 * n + d
    ensures 2 * n == 2 * (r * d) + d || 2 * (r * d) == 2 * n + d ==> r % 2 == 0
  {
    var q := n / d;
    var rem := n % d;
    assert n == q * d + rem;
    if 2 * rem < d then q
    else if 2 * rem > d then
      assert (q + 1) * d == q * d + d;
      q + 1
    else if q % 2 == 0 then q
    else
      assert (q + 1) * d == q * d + d;
      q + 1
  }

  /**
   * `attendance_percentage`: the share of sessions attended, in percent,
   * rounded to the nearest integer; 0 for a student without sessions.
   */
  function AttendancePercentage(visits: nat, sessions: nat): (p: nat)
    ensures sessions == 0 ==> p == 0
    ensures sessions > 0 ==> 2 * (100 * visits) <= 2 * (p * sessions) + sessions
    ensures sessions > 0 ==> 2 * (p * sessions) <= 2 * (100 * visits) + sessions
    ensures visits <= sessions ==> p <= 100
    ensures visits == 0 ==> p == 0
    ensures 0 < sessions == visits ==> p == 100
  {
    if sessions > 0 then
      RoundedShare(visits, sessions);
      RoundHalfEven(100 * visits, sessions)
    else 0
  }

  lemma MulLeft(a: nat, b: nat, c: nat)
    requires a <= b
    ensures a * c <= b * c
  {
  }

  /** The rounded percentage lies where the exact share does: between 0 and 100, at the ends exactly. */
  lemma RoundedShare(visits: nat, sessions: nat)
    requires sessions > 0
    ensures visits <= sessions ==> RoundHalfEven(100 * visits, sessions) <= 100
    ensures visits == 0 ==> RoundHalfEven(100 * visits, sessions) == 0
    ensures visits == sessions ==> RoundHalfEven(100 * visits, sessions) == 100
  {
    var p := RoundHalfEven(100 * visits, sessions);
    if visits <= sessions && p > 100 {
      MulLeft(101, p, sessions);
      assert false;
    }
    if visits == 0 && p > 0 {
      MulLeft(1, p, sessions);
      assert false;
    }
    if visits == sessions && p < 100 {
      MulLeft(p, 99, sessions);
      assert false;
    }
  }

  // ------------------------------------------------ GET

  /** A listed student: the row, the account's name, login and phone, the group name, and the statistics. */
  datatype StudentView = StudentView(
    student: Student,
    fullName: string,
    login: string,
    phone: string,
    groupName: Option<string>,
    totalVisits: nat,
    totalSessions: nat,
    attendancePercentage: nat)

  /**
   * The student as the query returns it: inner-joined with the account (no
   * account, no record), left-joined with the group.
   */
  function ViewOf(st: Student, users: seq<User>, groups: seq<Group>, rows: seq<AttendanceRow>): (r: Option<StudentView>)
    ensures r.Some? <==> FindUser(users, st.userId).Some?
    ensures r.Some? ==>
      && r.value.student == st
      && r.value.fullName == FindUser(users, st.userId).value.fullName
      && r.value.totalVisits == Visits(rows, st.id) && r.value.totalSessions == Sessions(rows, st.id)
      && r.value.attendancePercentage == AttendancePercentage(Visits(rows, st.id), Sessions(rows, st.id))
      && (r.value.groupName.Some? <==> st.groupId.Some? && FindGroup(groups, st.groupId.value).Some?)
  {
    match FindUser(users, st.userId)
    case None => None
    case Some(u) =>
      var groupName := match st.groupId
        case None => None
        case Some(g) => (match FindGroup(groups, g) case None => None case Some(grp) => Some(grp.name));
      var visits := Visits(rows, st.id);
      var sessions := Sessions(rows, st.id);
      Some(StudentView(st, u.fullName, u.login, u.phone, groupName, visits, sessions, AttendancePercentage(visits, sessions)))
  }

  /** The joined students, in table order. */
  function Views(students: seq<Student>, users: seq<User>, groups: seq<Group>, rows: seq<AttendanceRow>): (r: seq<StudentView>)
    ensures |r| <= |students|
    ensures forall v :: v in r ==> v.student in students && Some(v) == ViewOf(v.student, users, groups, rows)
  {
    if students == [] then []
    else
      (match ViewOf(students[0], users, groups, rows) case Some(v) => [v] case None => [])
      + Views(students[1..], users, groups, rows)
  }

  /**
   * While every student's account exists, the join keeps every student: the
   * i-th listed view is the i-th student's.
   */
  lemma {:induction false} ViewsKeepEveryone(students: seq<Student>, users: seq<User>, groups: seq<Group>, rows: seq<AttendanceRow>)
    requires StudentsHaveUsers(students, users)
    ensures |Views(students, users, groups, rows)| == |students|
    ensures forall i :: 0 <= i < |students| ==> Some(Views(students, users, groups, rows)[i]) == ViewOf(students[i], users, groups, rows)
  {
    if students != [] {
      assert StudentsHaveUsers(students[1..], users) by {
        assert forall i :: 0 <= i < |students[1..]| ==> students[1..][i] == students[i + 1];
      }
      ViewsKeepEveryone(students[1..], users, groups, rows);
      var v := ViewOf(students[0], users, groups, rows);
      assert v.Some?;
      var r := Views(students, users, groups, rows);
      assert r == [v.value] + Views(students[1..], users, groups, rows);
      forall i | 0 <= i < |students| ensures Some(r[i]) == ViewOf(students[i], users, groups, rows) {
        if i > 0 {
          assert r[i] == Views(students[1..], users, groups, rows)[i - 1];
          assert students[1..][i - 1] == students[i];
        }
      }
    }
  }

  /** `ORDER BY u.full_name`. */
  predicate ByName(a: StudentView, b: StudentView) {
    StrLe(a.fullName, b.fullName)
  }

  lemma ByNameTotal()
    ensures Total(ByName)
  {
    forall a: StudentView, b: StudentView ensures ByName(a, b) || ByName(b, a) {
      StrLeTotal(a.fullName, b.fullName);
    }
  }

  /** The GET listing: every joined student, ordered by full name. */
  function Roster(students: seq<Student>, users: seq<User>, groups: seq<Group>, rows: seq<AttendanceRow>): (r: seq<StudentView>)
    ensures multiset(r) == multiset(Views(students, users, groups, rows))
    ensures SortedBy(r, ByName)
    ensures forall v :: v in r ==> v.student in students && v.attendancePercentage <= 100
  {
    var all := Views(students, users, groups, rows);
    ByNameTotal();
    SortBySorted(all, ByName);
    var r := SortBy(all, ByName);
    assert forall v :: v in r ==> v in all by {
      forall v | v in r ensures v in all {
        assert v in multiset(r);
      }
    }
    forall v | v in r ensures v.attendancePercentage <= 100 {
      VisitsAtMostSessions(rows, v.student.id);
    }
    r
  }

  // ------------------------------------------------ POST

  /** The POST body; absent `full_name` and `parent_contact` default to `""`. */
  datatype EnrolRequest = EnrolRequest(fullName: Field<string>, birthDate: Option<string>, parentContact: Field<string>, groupId: Option<int>)

  /** A request that passed the checks: the stripped name and contact. */
  datatype Applicant = Applicant(fullName: string, birthDate: Option<string>, parentContact: string, groupId: Option<int>)

  datatype Enrolment = Declined(reply: Reply<Created>) | Accepted(applicant: Applicant)

  /** The success payload. */
  datatype Created = Created(studentId: int, login: string, tempPassword: string, message: string)

  /** The checks of the POST branch, in the handler's order; nothing is written before they pass. */
  function AdmitStudent(body: Parsed<EnrolRequest>): (e: Enrolment)
    ensures body.Malformed? ==> e == Declined(ServerError(body.detail))
    ensures body.Parsed? && (body.value.fullName.Null? || body.value.parentContact.Null?) ==>
      e == Declined(ServerError(NullTextDetail))
    ensures e.Accepted? <==>
      body.Parsed? && StripField(body.value.fullName).Some? && StripField(body.value.parentContact).Some?
      && StripField(body.value.fullName).value != ""
    ensures e.Accepted? ==>
      && e.applicant.fullName == StripField(body.value.fullName).value
      && e.applicant.parentContact == StripField(body.value.parentContact).value
      && e.applicant.birthDate == body.value.birthDate && e.applicant.groupId == body.value.groupId
    ensures e.Declined? && body.Parsed? && StripField(body.value.fullName).Some? && StripField(body.value.parentContact).Some?
      ==> e == Declined(Err(400, MissingNameMessage))
  {
    match body
    case Malformed(detail) => Declined(ServerError(detail))
    case Parsed(req) =>
      match (StripField(req.fullName), StripField(req.parentContact))
      case (Some(name), Some(contact)) =>
        if name == "" then Declined(Err(400, MissingNameMessage))
        else Accepted(Applicant(name, req.birthDate, contact, req.groupId))
      case _ => Declined(ServerError(NullTextDetail))
  }

  /**
   * The two inserts: the account (role `student`, the contact as its phone)
   * and the student row (balance 0), each under the next id of its table.
   */
  function Enrolled(db: Tables, a: Applicant, login: string, passwordHash: string): (r: Tables)
    ensures r.users == db.users + [User(db.nextUserId, login, passwordHash, StudentRole, a.fullName, a.parentContact)]
    ensures r.students == db.students + [Student(db.nextStudentId, db.nextUserId, a.groupId, a.birthDate, a.parentContact, 0)]
    ensures r.(users := db.users, students := db.students, nextUserId := db.nextUserId, nextStudentId := db.nextStudentId) == db
  {
    db.(users := db.users + [User(db.nextUserId, login, passwordHash, StudentRole, a.fullName, a.parentContact)],
        students := db.students + [Student(db.nextStudentId, db.nextUserId, a.groupId, a.birthDate, a.parentContact, 0)],
        nextUserId := db.nextUserId + 1,
        nextStudentId := db.nextStudentId + 1)
  }

  /** Appending a user leaves every earlier lookup as it was. */
  lemma {:induction false} FindUserAppend(users: seq<User>, u: User, id: int)
    ensures FindUser(users, id).Some? ==> FindUser(users + [u], id) == FindUser(users, id)
    ensures FindUser(users, id).None? && u.id == id ==> FindUser(users + [u], id) == Some(u)
  {
    if users != [] {
      assert (users + [u])[1..] == users[1..] + [u];
      FindUserAppend(users[1..], u, id);
    }
  }

  /** A student appended to the table: every reference to an earlier student still resolves. */
  lemma AppendedStudentKeepsReferences(students: seq<Student>, st: Student, groups: seq<Group>,
                                       rows: seq<AttendanceRow>, txs: seq<Transaction>)
    ensures RowsReferTo(rows, students, groups) ==> RowsReferTo(rows, students + [st], groups)
    ensures TxsReferTo(txs, students) ==> TxsReferTo(txs, students + [st])
  {
    forall x | HasStudent(students, x) ensures HasStudent(students + [st], x) {
      var i :| 0 <= i < |students| && students[i].id == x;
      assert (students + [st])[i].id == x;
    }
  }

  /** The new account carries the id the new student row refers to. */
  lemma EnrolmentKeepsAccounts(db: Tables, a: Applicant, login: string, passwordHash: string)
    requires StudentsHaveUsers(db.students, db.users)
    ensures var r := Enrolled(db, a, login, passwordHash); StudentsHaveUsers(r.students, r.users)
  {
    var r := Enrolled(db, a, login, passwordHash);
    var u := r.users[|db.users|];
    forall i | 0 <= i < |r.students| ensures FindUser(r.users, r.students[i].userId).Some? {
      FindUserAppend(db.users, u, r.students[i].userId);
      if i < |db.students| {
        assert r.students[i] == db.students[i];
      }
    }
  }

  /** The new student has no transactions yet, so its zero balance agrees with the ledger. */
  lemma EnrolmentKeepsLedger(db: Tables, a: Applicant, login: string, passwordHash: string)
    requires StudentIdsIssued(db.students, db.nextStudentId) && TxsReferTo(db.transactions, db.students)
    requires LedgerOf(db)
    ensures LedgerOf(Enrolled(db, a, login, passwordHash))
  {
    var r := Enrolled(db, a, login, passwordHash);
    var st := r.students[|db.students|];
    forall i | 0 <= i < |db.transactions| ensures db.transactions[i].studentId != st.id {
      assert HasStudent(db.students, db.transactions[i].studentId);
    }
    LedgerSumOfStranger(db.transactions, st.id);
    forall i | 0 <= i < |r.students| ensures r.students[i].balance == LedgerSum(r.transactions, r.students[i].id) {
      if i < |db.students| {
        assert r.students[i] == db.students[i];
      }
    }
  }

  /** Enrolment keeps the database constraints and the ledger invariant. */
  lemma EnrolmentKeepsInvariants(db: Tables, a: Applicant, login: string, passwordHash: string)
    ensures ValidTables(db) ==> ValidTables(Enrolled(db, a, login, passwordHash))
    ensures LedgerOf(db) && ValidTables(db) ==> LedgerOf(Enrolled(db, a, login, passwordHash))
  {
    var r := Enrolled(db, a, login, passwordHash);
    if ValidTables(db) {
      AppendedStudentKeepsReferences(db.students, r.students[|db.students|], db.groups, db.attendance, db.transactions);
      EnrolmentKeepsAccounts(db, a, login, passwordHash);
      if LedgerOf(db) {
        EnrolmentKeepsLedger(db, a, login, passwordHash);
      }
    }
  }

  /** `INSERT INTO users ... RETURNING id`, then `INSERT INTO students ... RETURNING id`. */
  method Insert(db: Database, a: Applicant, login: string, passwordHash: string) returns (studentId: int)
    modifies db
    ensures db.Snapshot() == Enrolled(old(db.Snapshot()), a, login, passwordHash)
    ensures studentId == old(db.nextStudentId)
  {
    var userId := db.nextUserId;
    db.users := db.users + [User(userId, login, passwordHash, StudentRole, a.fullName, a.parentContact)];
    db.nextUserId := db.nextUserId + 1;
    studentId := db.nextStudentId;
    db.students := db.students + [Student(studentId, userId, a.groupId, a.birthDate, a.parentContact, 0)];
    db.nextStudentId := db.nextStudentId + 1;
  }

  /**
   * The POST branch. The random draws behind the login and the temporary
   * password, and the bcrypt hash of that password, are given by the caller.
   */
  method Enrol(db: Database, body: Parsed<EnrolRequest>, loginPicks: seq<nat>, passwordPicks: seq<nat>, passwordHash: string)
    returns (reply: Reply<Created>)
    requires db.Valid()
    requires ValidPicks(loginPicks, LoginDigits, |DigitAlphabet|)
    requires ValidPicks(passwordPicks, PasswordLength, |PasswordAlphabet|)
    modifies db
    ensures db.Valid()
    ensures old(db.LedgerBalanced()) ==> db.LedgerBalanced()
    ensures match AdmitStudent(body)
      case Declined(r) => reply == r && db.Snapshot() == old(db.Snapshot())
      case Accepted(a) =>
        && db.Snapshot() == Enrolled(old(db.Snapshot()), a, GenerateLogin(loginPicks), passwordHash)
        && reply == Ok(201, Created(old(db.nextStudentId), GenerateLogin(loginPicks), TempPassword(passwordPicks), CreatedMessage))
  {
    var e := AdmitStudent(body);
    if e.Declined? {
      return e.reply;
    }
    var login := GenerateLogin(loginPicks);
    var password := TempPassword(passwordPicks);
    EnrolmentKeepsInvariants(db.Snapshot(), e.applicant, login, passwordHash);
    var studentId := Insert(db, e.applicant, login, passwordHash);
    reply := Ok(201, Created(studentId, login, password, CreatedMessage));
  }

  datatype StudentsPayload = Preflighted | Listed(students: seq<StudentView>) | Admitted(created: Created)

  /** The handler: routing on the HTTP method, then the branch. */
  method Handle(db: Database, httpMethod: Option<string>, body: Parsed<EnrolRequest>,
                loginPicks: seq<nat>, passwordPicks: seq<nat>, passwordHash: string)
    returns (reply: Reply<StudentsPayload>)
    requires db.Valid()
    requires ValidPicks(loginPicks, LoginDigits, |DigitAlphabet|)
    requires ValidPicks(passwordPicks, PasswordLength, |PasswordAlphabet|)
    modifies db
    ensures db.Valid()
    ensures old(db.LedgerBalanced()) ==> db.LedgerBalanced()
    ensures RouteOf(httpMethod) != Submit ==> db.Snapshot() == old(db.Snapshot())
    ensures RouteOf(httpMethod) == Preflight ==> reply == Ok(200, Preflighted)
    ensures RouteOf(httpMethod) == NotAllowed ==> reply == Err(405, MethodNotAllowedMessage)
    ensures RouteOf(httpMethod) == Query ==> reply == Ok(200, Listed(Roster(db.students, db.users, db.groups, db.attendance)))
    ensures RouteOf(httpMethod) == Submit ==>
      match AdmitStudent(body)
      case Declined(r) => reply == Err(r.status, r.error) && db.Snapshot() == old(db.Snapshot())
      case Accepted(a) =>
        && db.Snapshot() == Enrolled(old(db.Snapshot()), a, GenerateLogin(loginPicks), passwordHash)
        && reply == Ok(201, Admitted(Created(old(db.nextStudentId), GenerateLogin(loginPicks), TempPassword(passwordPicks), CreatedMessage)))
  {
    match RouteOf(httpMethod)
    case Preflight =>
      reply := Ok(200, Preflighted);
    case NotAllowed =>
      reply := Err(405, MethodNotAllowedMessage);
    case Query =>
      reply := Ok(200, Listed(Roster(db.students, db.users, db.groups, db.attendance)));
    case Submit =>
      var r := Enrol(db, body, loginPicks, passwordPicks, passwordHash);
      reply := match r
               case Ok(status, created) => Ok(status, Admitted(created))
               case Err(status, error) => Err(status, error);
  }
}

=== FILE: text.dfy ===
/**
 * Text helpers shared by the handlers: Python's argument-less `str.strip()` and
 * code-point order on strings (the order used for `ORDER BY` on text and dates).
 */
module Text {

  /** The characters for which Python's `str.isspace()` holds; `strip()` removes exactly these. */
  predicate IsSpace(c: char) {
    || c == ' '
    || ('\t' <= c <= '\r')
    || ('\U{1C}' <= c <= '\U{1F}')
    || c == '\U{85}' || c == '\U{A0}' || c == '\U{1680}'
    || ('\U{2000}' <= c <= '\U{200A}')
    || c == '\U{2028}' || c == '\U{2029}' || c == '\U{202F}' || c == '\U{205F}' || c == '\U{3000}'
  }

  predicate AllSpace(s: string) {
    forall i :: 0 <= i < |s| ==> IsSpace(s[i])
  }

  /** The number of whitespace characters at the start of `s`. */
  function LeadingSpaces(s: string): (n: nat)
    ensures n <= |s|
    ensures AllSpace(s[..n])
    ensures n < |s| ==> !IsSpace(s[n])
  {
    if s != [] && IsSpace(s[0]) then
      var n := 1 + LeadingSpaces(s[1..]);
      assert s[..n] == [s[0]] + s[1..][..n - 1];
      n
    else
      0
  }

  /** The index at which the whitespace at the end of `s` begins. */
  function TrailingStart(s: string): (n: nat)
    ensures n <= |s|
    ensures AllSpace(s[n..])
    ensures n > 0 ==> !IsSpace(s[n - 1])
  {
    if s != [] && IsSpace(s[|s| - 1]) then
      var n := TrailingStart(s[..|s| - 1]);
      assert s[n..] == s[..|s| - 1][n..] + [s[|s| - 1]];
      n
    else
      |s|
  }

  /**
   * Python's `s.strip()`: the slice of `s` between its leading and its trailing
   * whitespace. Nothing but whitespace is removed, and the result neither starts
   * nor ends with whitespace.
   */
  function Strip(s: string): (r: string)
    ensures var i := LeadingSpaces(s);
      && i + |r| <= |s|
      && r == s[i..i + |r|]
      && AllSpace(s[..i]) && AllSpace(s[i + |r|..])
    ensures r == [] || (!IsSpace(r[0]) && !IsSpace(r[|r| - 1]))
  {
    var i := LeadingSpaces(s);
    var j := TrailingStart(s[i..]);
    assert AllSpace(s[i + j..]) by {
      assert s[i + j..] == s[i..][j..];
    }
    s[i..i + j]
  }

  /** A stripped string is empty exactly when the original held only whitespace. */
  lemma StripEmptyIffAllSpace(s: string)
    ensures Strip(s) == [] <==> AllSpace(s)
  {
    var i := LeadingSpaces(s);
    if Strip(s) == [] {
      assert i == |s|;
      assert s[..i] == s;
    } else {
      assert !IsSpace(s[i]);
    }
  }

  /** A string without whitespace at either end is left as it is. */
  lemma StripUntrimmed(s: string)
    requires s == [] || (!IsSpace(s[0]) && !IsSpace(s[|s| - 1]))
    ensures Strip(s) == s
  {
    if s != [] {
      assert LeadingSpaces(s) == 0;
      assert TrailingStart(s[0..]) == |s|;
    }
  }

  /** Stripping twice is stripping once. */
  lemma StripIdempotent(s: string)
    ensures Strip(Strip(s)) == Strip(s)
  {
    StripUntrimmed(Strip(s));
  }

  /** Lexicographic order on code points (PostgreSQL's "C" collation). */
  predicate StrLe(a: string, b: string) {
    a == [] || (b != [] && (a[0] < b[0] || (a[0] == b[0] && StrLe(a[1..], b[1..]))))
  }

  lemma {:induction false} StrLeTotal(a: string, b: string)
    ensures StrLe(a, b) || StrLe(b, a)
  {
    if a != [] && b != [] && a[0] == b[0] {
      StrLeTotal(a[1..], b[1..]);
    }
  }

  lemma {:induction false} StrLeTransitive(a: string, b: string, c: string)
    requires StrLe(a, b) && StrLe(b, c)
    ensures StrLe(a, c)
  {
    if a != [] && b != [] && c != [] && a[0] == b[0] == c[0] {
      StrLeTransitive(a[1..], b[1..], c[1..]);
    }
  }

  lemma {:induction false} StrLeAntisymmetric(a: string, b: string)
    requires StrLe(a, b) && StrLe(b, a)
    ensures a == b
  {
    if a != [] && b != [] {
      StrLeAntisymmetric(a[1..], b[1..]);
      assert a == [a[0]] + a[1..];
      assert b == [b[0]] + b[1..];
    }
  }
}

=== FILE: transactions.dfy ===
/**
 * The transactions handler: recording a payment (POST), which posts a
 * `payment` transaction and raises the student's balance by its amount, and
 * listing transactions newest first (GET).
 */
module Transactions {
  import opened Wrappers
  import opened Text
  import opened Decimal
  import opened Seqs
  import opened Http
  import opened Db

  const MissingFieldsMessage := "ID ученика и сумма обязательны"
  const DefaultDescription := "Пополнение баланса"
  /** The `TypeError` of reading the balance of a student the `SELECT` did not find. */
  const NoStudentDetail := "'NoneType' object is not subscriptable"
  /** Every listing is `LIMIT 100`. */
  const ListLimit := 100

  /** The JSON value of `amount`, as far as `int(amount)` tells its kinds apart. */
  datatype Amount =
    | Missing
    | NullAmount
    | Integer(i: int)
    | Flag(b: bool)
    | Fractional(x: real)
    | Numeral(s: string)
    | Compound(typeName: string)

  datatype PaymentRequest = PaymentRequest(studentId: Option<int>, amount: Amount, description: Field<string>, createdBy: Option<int>)

  /** A payment that passed every check, with its amount converted and its description settled. */
  datatype Deposit = Deposit(studentId: int, amount: int, description: string, createdBy: Option<int>)

  /** The success payload: the new transaction's id and the balance after it. */
  datatype PaymentAck = PaymentAck(transactionId: int, newBalance: int)

  /**
   * The outcome of the checks: refused before anything is written, aborted after
   * the `INSERT` has drawn a transaction id (the student was not found), or accepted.
   */
  datatype Check = Refused(reply: Reply<PaymentAck>) | Aborted(reply: Reply<PaymentAck>) | Accepted(deposit: Deposit)

  /** Python's `int(x)` of a float: truncation toward zero. */
  function TruncateReal(x: real): (r: int)
    ensures 0.0 <= x ==> r as real <= x < r as real + 1.0
    ensures x < 0.0 ==> r as real - 1.0 < x <= r as real
  {
    if x >= 0.0 then x.Floor else -((-x).Floor)
  }

  /** Python's `int(amount)` for the kinds of JSON value that reach it, or the exception it raises. */
  function Coerce(a: Amount): (r: Parsed<int>)
    requires !a.Missing? && !a.NullAmount?
    ensures a.Integer? ==> r == Parsed(a.i)
    ensures a.Flag? ==> r == Parsed(if a.b then 1 else 0)
    ensures a.Fractional? ==> r == Parsed(TruncateReal(a.x))
    ensures a.Numeral? ==> (r.Parsed? <==> ParseInteger(a.s).Some?) && (r.Parsed? ==> r.value == ParseInteger(a.s).value)
    ensures a.Compound? ==> r.Malformed?
  {
    match a
    case Integer(i) => Parsed(i)
    case Flag(b) => Parsed(if b then 1 else 0)
    case Fractional(x) => Parsed(TruncateReal(x))
    case Numeral(s) =>
      (match ParseInteger(s)
       case Some(i) => Parsed(i)
       case None => Malformed("invalid literal for int() with base 10: '" + s + "'"))
    case Compound(t) => Malformed("int() argument must be a string, a bytes-like object or a real number, not '" + t + "'")
  }

  /**
   * The checks of the POST branch, in the handler's order: the body decodes, the
   * description strips, student and amount are given, the amount converts, the
   * student exists. Only then is anything written.
   */
  function AdmitPayment(students: seq<Student>, body: Parsed<PaymentRequest>): (c: Check)
    ensures c.Accepted? ==> HasStudent(students, c.deposit.studentId)
  {
    match body
    case Malformed(detail) => Refused(ServerError(detail))
    case Parsed(req) =>
      if req.description.Null? then Refused(ServerError(NullTextDetail))
      else
        var description := if req.description.Present? then Strip(req.description.value) else "";
        if !IdGiven(req.studentId) || req.amount.Missing? || req.amount.NullAmount? then
          Refused(Err(400, MissingFieldsMessage))
        else
          match Coerce(req.amount)
          case Malformed(detail) => Refused(ServerError(detail))
          case Parsed(amount) =>
            if !HasStudent(students, req.studentId.value) then Aborted(ServerError(NoStudentDetail))
            else Accepted(Deposit(req.studentId.value, amount, if description == "" then DefaultDescription else description, req.createdBy))
  }

  /**
   * The refusals, in the handler's order; every one is an error reply with status
   * 400 or 500. A payment for a missing student fails only after its `INSERT`.
   */
  lemma PaymentRefusals(students: seq<Student>, body: Parsed<PaymentRequest>)
    ensures var c := AdmitPayment(students, body);
      && (body.Malformed? ==> c == Refused(ServerError(body.detail)))
      && (body.Parsed? && body.value.description.Null? ==> c == Refused(ServerError(NullTextDetail)))
      && (body.Parsed? && !body.value.description.Null? &&
          (!IdGiven(body.value.studentId) || body.value.amount.Missing? || body.value.amount.NullAmount?)
          ==> c == Refused(Err(400, MissingFieldsMessage)))
      && (body.Parsed? && !body.value.description.Null? && IdGiven(body.value.studentId) &&
          !body.value.amount.Missing? && !body.value.amount.NullAmount? && Coerce(body.value.amount).Parsed? &&
          !HasStudent(students, body.value.studentId.value)
          ==> c == Aborted(ServerError(NoStudentDetail)))
      && (c.Refused? || c.Aborted? ==> c.reply.Err? && c.reply.status in {400, 500})
      && (c.Aborted? ==> c.reply.status == 500)
  {
  }

  /**
   * A payment is accepted exactly when the body decodes, its description is not
   * `null`, student and amount are given, the amount converts and the student
   * exists; the deposit then carries the converted amount and the stripped
   * description, or the default one when that is empty.
   */
  lemma PaymentAcceptance(students: seq<Student>, body: Parsed<PaymentRequest>)
    ensures var c := AdmitPayment(students, body);
      var req := if body.Parsed? then body.value else PaymentRequest(None, Missing, Absent, None);
      && (c.Accepted? <==>
           && body.Parsed? && !req.description.Null?
           && IdGiven(req.studentId) && !req.amount.Missing? && !req.amount.NullAmount?
           && Coerce(req.amount).Parsed? && HasStudent(students, req.studentId.value))
      && (c.Accepted? ==>
           && c.deposit.studentId == req.studentId.value
           && Parsed(c.deposit.amount) == Coerce(req.amount)
           && c.deposit.createdBy == req.createdBy
           && c.deposit.description != []
           && (req.description.Present? && Strip(req.description.value) != [] ==> c.deposit.description == Strip(req.description.value))
           && (req.description.Absent? || (req.description.Present? && Strip(req.description.value) == [])
               ==> c.deposit.description == DefaultDescription))
  {
  }

  /** The transaction a deposit posts under id `id`. */
  function PaymentFor(d: Deposit, id: int): Transaction {
    Transaction(id, d.studentId, d.amount, Payment, d.description, d.createdBy)
  }

  /**
   * The POST branch: the checks, then the `payment` transaction posted and the
   * balance raised by its amount, and the new balance read back, committed
   * together. A refused request changes nothing; an aborted one leaves only its
   * transaction id used up.
   */
  method Pay(db: Database, body: Parsed<PaymentRequest>) returns (reply: Reply<PaymentAck>)
    requires db.Valid()
    modifies db
    ensures db.Valid()
    ensures old(db.LedgerBalanced()) ==> db.LedgerBalanced()
    ensures match AdmitPayment(old(db.students), body)
      case Refused(r) => reply == r && db.Snapshot() == old(db.Snapshot())
      case Aborted(r) =>
        reply == r && db.Snapshot() == old(db.Snapshot()).(nextTransactionId := old(db.nextTransactionId) + 1)
      case Accepted(d) =>
        && db.Snapshot() == Posted(old(db.Snapshot()), PaymentFor(d, old(db.nextTransactionId)))
        && HasStudent(db.students, d.studentId)
        && reply == Ok(200, PaymentAck(old(db.nextTransactionId), BalanceOf(db.students, d.studentId)))
  {
    var check := AdmitPayment(db.students, body);
    if check.Refused? {
      return check.reply;
    }
    if check.Aborted? {
      IdDrawKeepsInvariants(db.Snapshot());
      db.DrawTransactionId();
      return check.reply;
    }
    var d := check.deposit;
    var id := db.nextTransactionId;
    PostingKeepsInvariants(db.Snapshot(), PaymentFor(d, id));
    PostedBalance(db.Snapshot(), PaymentFor(d, id));
    db.Post(PaymentFor(d, id));
    reply := Ok(200, PaymentAck(id, BalanceOf(db.students, d.studentId)));
  }

  // ---------------------------------------------------------------- GET

  /** A given `student_id` lists that student's transactions; otherwise all are listed. */
  datatype TxQuery = OfStudent(studentId: int) | AllTxs

  function SelectTx(studentParam: Option<string>): (r: Parsed<TxQuery>)
    ensures !TextGiven(studentParam) ==> r == Parsed(AllTxs)
    ensures TextGiven(studentParam) ==>
      match ReadId(studentParam.value)
      case Some(id) => r == Parsed(OfStudent(id))
      case None => r.Malformed?
  {
    if !TextGiven(studentParam) then Parsed(AllTxs)
    else
      match ReadId(studentParam.value)
      case Some(id) => Parsed(OfStudent(id))
      case None => Malformed(InvalidIdDetail(studentParam.value))
  }

  /** A listed transaction with the joined names: the student's (full listing only) and the author's. */
  datatype TxView = TxView(tx: Transaction, studentName: Option<string>, createdByName: Option<string>)

  /** `LEFT JOIN users ON t.created_by = users.id`: the author's name, when there is one. */
  function CreatorName(users: seq<User>, createdBy: Option<int>): (r: Option<string>)
    ensures r.Some? <==> createdBy.Some? && FindUser(users, createdBy.value).Some?
  {
    match createdBy
    case None => None
    case Some(u) =>
      match FindUser(users, u)
      case None => None
      case Some(user) => Some(user.fullName)
  }

  /** The account name of a student, through `students.user_id`. */
  function AccountName(students: seq<Student>, users: seq<User>, studentId: int): (r: Option<string>)
    ensures r.Some? ==> HasStudent(students, studentId)
  {
    match FindStudent(students, studentId)
    case None => None
    case Some(i) =>
      match FindUser(users, students[i].userId)
      case None => None
      case Some(u) => Some(u.fullName)
  }

  predicate TxMatches(q: TxQuery, t: Transaction) {
    q.AllTxs? || t.studentId == q.studentId
  }

  /**
   * The transaction as the query returns it: a student's listing only left-joins
   * the author, so it drops nothing; the full listing inner-joins the student
   * and the student's account.
   */
  function JoinTx(q: TxQuery, t: Transaction, students: seq<Student>, users: seq<User>): (r: Option<TxView>)
    ensures r.Some? ==> r.value.tx == t && TxMatches(q, t) && r.value.createdByName == CreatorName(users, t.createdBy)
    ensures r.Some? ==> r.value.studentName == if q.AllTxs? then AccountName(students, users, t.studentId) else None
    ensures r.None? ==> !TxMatches(q, t) || (q.AllTxs? && AccountName(students, users, t.studentId).None?)
  {
    if !TxMatches(q, t) then None
    else
      match q
      case OfStudent(_) => Some(TxView(t, None, CreatorName(users, t.createdBy)))
      case AllTxs =>
        match AccountName(students, users, t.studentId)
        case None => None
        case Some(name) => Some(TxView(t, Some(name), CreatorName(users, t.createdBy)))
  }

  /** The joined transactions, in table (creation) order. */
  function TxJoined(q: TxQuery, txs: seq<Transaction>, students: seq<Student>, users: seq<User>): (r: seq<TxView>)
    ensures |r| <= |txs|
    ensures forall v :: v in r ==> v.tx in txs && TxMatches(q, v.tx)
  {
    if txs == [] then []
    else
      (match JoinTx(q, txs[0], students, users) case Some(v) => [v] case None => [])
      + TxJoined(q, txs[1..], students, users)
  }

  function TxsOf(vs: seq<TxView>): (r: seq<Transaction>)
    ensures |r| == |vs| && forall i :: 0 <= i < |vs| ==> r[i] == vs[i].tx
  {
    if vs == [] then [] else [vs[0].tx] + TxsOf(vs[1..])
  }

  /** `WHERE` alone: the transactions the query selects, in table order. */
  function MatchingTxs(q: TxQuery, txs: seq<Transaction>): (r: seq<Transaction>)
    ensures forall t :: t in r <==> t in txs && TxMatches(q, t)
  {
    if txs == [] then []
    else (if TxMatches(q, txs[0]) then [txs[0]] else []) + MatchingTxs(q, txs[1..])
  }

  /**
   * A student's listing drops nothing; neither does the full listing while every
   * transaction's student and that student's account exist.
   */
  lemma {:induction false} TxJoinsDropNothing(q: TxQuery, txs: seq<Transaction>, students: seq<Student>, users: seq<User>)
    requires q.AllTxs? ==> TxsReferTo(txs, students) && StudentsHaveUsers(students, users)
    ensures TxsOf(TxJoined(q, txs, students, users)) == MatchingTxs(q, txs)
  {
    if txs != [] {
      assert q.AllTxs? ==> TxsReferTo(txs[1..], students) by {
        assert forall i :: 0 <= i < |txs[1..]| ==> txs[1..][i] == txs[i + 1];
      }
      TxJoinsDropNothing(q, txs[1..], students, users);
      if q.AllTxs? {
        assert HasStudent(students, txs[0].studentId);
        var i := FindStudent(students, txs[0].studentId).value;
        assert FindUser(users, students[i].userId).Some?;
      }
      var head := match JoinTx(q, txs[0], students, users) case Some(v) => [v] case None => [];
      var tail := TxJoined(q, txs[1..], students, users);
      assert TxsOf(head + tail) == TxsOf(head) + TxsOf(tail);
    }
  }

  predicate IdsIncreasing(vs: seq<TxView>) {
    forall i, j :: 0 <= i < j < |vs| ==> vs[i].tx.id < vs[j].tx.id
  }

  /** Joining keeps the table's order, so ids still grow along the joined rows. */
  lemma {:induction false} TxJoinedIncreasing(q: TxQuery, txs: seq<Transaction>, students: seq<Student>, users: seq<User>)
    requires forall i, j :: 0 <= i < j < |txs| ==> txs[i].id < txs[j].id
    ensures IdsIncreasing(TxJoined(q, txs, students, users))
  {
    if txs != [] {
      var rest := txs[1..];
      TxJoinedIncreasing(q, rest, students, users);
      var tail := TxJoined(q, rest, students, users);
      forall v | v in tail ensures txs[0].id < v.tx.id {
        var k :| 0 <= k < |rest| && rest[k] == v.tx;
        assert txs[k + 1] == v.tx;
      }
    }
  }

  /**
   * `ORDER BY t.created_at DESC LIMIT 100`: the most recent transactions, newest
   * first, creation order standing for `created_at`.
   */
  function TxListing(q: TxQuery, txs: seq<Transaction>, students: seq<Student>, users: seq<User>): (r: seq<TxView>)
    ensures var all := TxJoined(q, txs, students, users);
      && |r| == (if |all| < ListLimit then |all| else ListLimit)
      && forall i :: 0 <= i < |r| ==> r[i] == all[|all| - 1 - i]
  {
    Take(Reverse(TxJoined(q, txs, students, users)), ListLimit)
  }

  /** With ids growing along the table, the listing's ids strictly decrease: newest first. */
  lemma NewestFirst(q: TxQuery, txs: seq<Transaction>, students: seq<Student>, users: seq<User>)
    requires forall i, j :: 0 <= i < j < |txs| ==> txs[i].id < txs[j].id
    ensures var r := TxListing(q, txs, students, users);
      forall i, j :: 0 <= i < j < |r| ==> r[i].tx.id > r[j].tx.id
  {
    TxJoinedIncreasing(q, txs, students, users);
  }

  /** The GET branch's reply. */
  function TxListReply(studentParam: Option<string>, txs: seq<Transaction>, students: seq<Student>, users: seq<User>): (r: Reply<seq<TxView>>)
    ensures r.Ok? <==> SelectTx(studentParam).Parsed?
    ensures r.Ok? ==> r.status == 200 && r.value == TxListing(SelectTx(studentParam).value, txs, students, users)
    ensures r.Err? ==> r.status == 500
  {
    match SelectTx(studentParam)
    case Malformed(detail) => ServerError(detail)
    case Parsed(q) => Ok(200, TxListing(q, txs, students, users))
  }

  datatype TxPayload = Preflighted | Paid(ack: PaymentAck) | Listed(transactions: seq<TxView>)

  /** The handler: routing on the HTTP method, then the branch. */
  method Handle(db: Database, httpMethod: Option<string>, body: Parsed<PaymentRequest>, studentParam: Option<string>)
    returns (reply: Reply<TxPayload>)
    requires db.Valid()
    modifies db
    ensures db.Valid()
    ensures old(db.LedgerBalanced()) ==> db.LedgerBalanced()
    ensures RouteOf(httpMethod) != Submit ==> db.Snapshot() == old(db.Snapshot())
    ensures RouteOf(httpMethod) == Preflight ==> reply == Ok(200, Preflighted)
    ensures RouteOf(httpMethod) == NotAllowed ==> reply == Err(405, MethodNotAllowedMessage)
    ensures RouteOf(httpMethod) == Query ==>
      reply == match TxListReply(studentParam, db.transactions, db.students, db.users)
               case Ok(status, views) => Ok(status, Listed(views))
               case Err(status, error) => Err(status, error)
    ensures RouteOf(httpMethod) == Submit ==>
      match AdmitPayment(old(db.students), body)
      case Refused(r) => reply == Err(r.status, r.error) && db.Snapshot() == old(db.Snapshot())
      case Aborted(r) =>
        reply == Err(r.status, r.error) && db.Snapshot() == old(db.Snapshot()).(nextTransactionId := old(db.nextTransactionId) + 1)
      case Accepted(d) =>
        && db.Snapshot() == Posted(old(db.Snapshot()), PaymentFor(d, old(db.nextTransactionId)))
        && HasStudent(db.students, d.studentId)
        && reply == Ok(200, Paid(PaymentAck(old(db.nextTransactionId), BalanceOf(db.students, d.studentId))))
  {
    match RouteOf(httpMethod)
    case Preflight =>
      reply := Ok(200, Preflighted);
    case NotAllowed =>
      reply := Err(405, MethodNotAllowedMessage);
    case Query =>
      reply := match TxListReply(studentParam, db.transactions, db.students, db.users)
               case Ok(status, views) => Ok(status, Listed(views))
               case Err(status, error) => Err(status, error);
    case Submit =>
      var r := Pay(db, body);
      reply := match r
               case Ok(status, ack) => Ok(status, Paid(ack))
               case Err(status, error) => Err(status, error);
  }
}

=== FILE: wrappers.dfy ===
/** Optional values, standing for a JSON field that may be absent or null. */
module Wrappers {

  datatype Option<+T> = None | Some(value: T) {

    /** The value, or `default` when there is none. */
    function GetOr(default: T): T {
      match this
      case Some(v) => v
      case None => default
    }
  }
}
